=== FILE: README.md ===
# Flutter outline navigator — a Dafny model

The extension `flutter-code-jumper` moves the caret and the selection of a
Dart editor around the outline tree that the Dart analysis service computes
for the file. The tree holds widgets, constructor invocations, named
arguments and list literals. This project models the navigation engine in
`src/extension.ts` as pure Dafny functions over an immutable outline tree,
and proves properties of that model.

Modules, one per file:

- `Wrappers` (`wrappers.dfy`): the `Option` type.
- `Geometry` (`geometry.dfy`): positions, ranges and selections. It has
  the cursor-containment test `isPositionWithinRange` and the range-nesting
  test of `findAllNodesWithinRange`, and relates both to the lexicographic
  order on positions.
- `Outline` (`outline.dfy`): the outline node, and the two traversals every
  query is built from. One is the depth-first "first hit" search, the other
  the depth-first collection. Both are proved equal to operations on the
  pre-order listing of the tree.
- `Locator` (`locator.dfy`): these functions:
  - `findNodeAtPosition` and `findSmallestNode`
  - `findExactNode`
  - `findAllNodesOfType` and `findAllNodesWithinRange`
  - `findFirstChildNode`, `findLastIndex` and `determineNavigationContext`
- `Parents` (`parents.dfy`): `findParentNodeExcludingCurrent`, plus the
  three upward walks `findParentOfType`, `findParentArray` and
  `findNearestConstructor`.
- `Cycle` (`cycle.dfy`): the cyclic step of parameter navigation. It
  includes JavaScript's `%`, `findIndex` and the wraparound.
- `Params` (`params.dfy`): `extractParameters`. This is a global scan of
  the expression `(\w+)\s*:\s*([^,]+)(,|$)`, proved equal to a declarative
  statement of what the expression matches.
- `Navigate` (`navigate.dfy`): `navigateParams`. It chooses between the
  innermost constructor's parameters and the elements of the array around
  the cursor, then takes one cyclic step.
- `Commands` (`commands.dfy`): the six registered commands as decisions
  from the outline, the document and the selection to a new selection.

The editor's text buffer is the value `TextDocument`. Its offset/position
conversions and its `getText` are opaque function parameters. A command
returns `None` when the source returns without touching the selection.
Positions read from the outline are taken to be non-negative (see
"## Left out").

Some results are proved beyond the per-call contracts:

- The parent relation compares start positions only. A root with a child
  at its own start is therefore its own parent (`Parents.SelfParent`). A
  root that fails a walk's test and has a child at its own start makes the
  upward walk from any node at that start run forever
  (`Parents.ParentWalkDiverges`). The nearest-constructor walk does the
  same from a root that is neither a constructor nor a named argument
  (`Parents.NearestConstructorDiverges`).
  Likewise a node whose real parent starts where it does is attributed to
  the first node in pre-order with a child at that start: navigating to
  the parent, or growing the selection, can skip a level
  (`Commands.ParentSkipsSharedStart`, `Commands.SelectionSkipsSharedStart`).
- In an outline where every child lies inside its parent and no two nodes
  start at the same position, each of the three upward walks ends within
  the tree's size (`Parents.ParentWalkTreeSizeFuel` and
  `Parents.NearestConstructorTreeSizeFuel`).
- At most one node of the document is "array-like" for a given cursor
  (`Navigate.ArrayLikeIsUnique`).
- Over a fixed list of `n` separated elements, `n` cyclic steps return the
  caret to where it began (`Cycle.CycleClosure`). The list is chosen anew at
  every step, though. In an array of constructors that carry parameter
  text, a step selects a constructor, and the next step starts inside it
  and moves through its parameters instead of on to the next element
  (`Navigate.ArrayOfConstructorsDoesNotCycle`).

Facts about the code that a reader might not expect:

- Parameters are split by the regular expression, which knows nothing of
  brackets or quotes. A comma inside a nested call ends a parameter
  (`Params.CommaInsideCallSplits`).
- The element holding the cursor is the first one whose own range contains
  it. There is no "effective end" that extends an element to the next
  element's start.
- A backward step from a found element goes to the previous element, not
  to the same one.
- When neither a constructor nor an array applies, nothing happens. There
  is no generic fallback to the parent's children.
- `findParentOfType`, `findParentArray`, `findNearestConstructor`,
  `findLastIndex`, `determineNavigationContext` and `findAllNodesOfType`
  have no caller in src/extension.ts; the last only calls itself. The
  divergence of the upward walks is therefore latent: no registered
  command reaches it.

## Model

| member | source | states |
|---|---|---|
| Geometry.Ordered | src/extension.ts:232-237 | a range put in order: always well formed, the same two ends, and a well-formed range unchanged |
| Geometry.WithinIsInclusiveInterval | src/extension.ts:577-584 | a position is within a range exactly when start <= position <= end in (line, character) order, inclusive at both ends |
| Geometry.WithinEndpoints | src/extension.ts:577-584 | a range contains its own start and end exactly when it is well formed; nothing before the start or after the end is contained |
| Geometry.NestedInIsEndpointOrder | src/extension.ts:664-670 | the nesting test of `findAllNodesWithinRange` holds exactly when the outer start <= the inner start and the inner end <= the outer end |
| Geometry.NestedInIffEndsWithin | src/extension.ts:664-670 | for a well-formed inner range, nesting is containment of both its ends |
| Geometry.NestedInPreorder | src/extension.ts:664-670 | nesting is reflexive and transitive |
| Geometry.SizeRanksNestedRanges | src/extension.ts:299-307 | when all character columns lie in [0, 500], the size key `lines*1000 + characters` of a range nested in another is no larger than the outer one's |
| Geometry.SizeMisranksLongLines | src/extension.ts:299-307 | with a column past 1000, a range nested inside another can have the larger size key: (0,10)-(0,1100) inside (0,0)-(1,5) |
| Outline.DepthFirstIsFirstInPreorder | src/extension.ts:587-603 | the search "test the node, then each child subtree in turn" returns the first node of the pre-order listing that passes |
| Outline.CollectIsFilteredPreorder | src/extension.ts:635-649 | the collection "the node if it passes, then each child's collection concatenated" is the pre-order listing filtered by the test |
| Outline.FirstWhereIsLeast | src/extension.ts:530-548 | the first-hit search returns the element at the least passing index, and fails exactly when no element passes |
| Outline.FilterMembers | src/extension.ts:635-649 | the filter keeps exactly the elements that pass |
| Locator.FindNodeAtPosition | src/extension.ts:550-563 | nothing exactly when the root does not contain the position; otherwise a node of the tree that contains the position and none of whose children does (which one: Locator.NodeAtPositionIsFirstInnermost) |
| Locator.NodeAtPositionIsFirstInnermost | src/extension.ts:550-563 | when every child lies inside its parent, the descent into the first child holding the position returns the first node in pre-order that holds the position while none of its children does |
| Locator.SharedEndGoesToFirstChild | src/extension.ts:555-559 | at a position two sibling leaves share, the earlier sibling is returned, though the later one also qualifies as innermost |
| Locator.SmallestIsNodeAtPosition | src/extension.ts:605-618 | `findSmallestNode` returns the same result as `findNodeAtPosition` on every tree and position |
| Locator.NodeAtPositionNested | src/extension.ts:550-563 | when every child lies inside its parent, the node found lies inside the root |
| Locator.FindExactNode | src/extension.ts:587-603 | the first node in pre-order whose range is exactly the query; nothing exactly when no node of the tree has that range |
| Locator.FindAllNodesOfType | src/extension.ts:635-649 | the nodes of the given kind in pre-order; a node is in the result exactly when it is in the tree and has that kind |
| Locator.FindAllNodesWithinRange | src/extension.ts:652-684 | the nodes whose ranges nest inside the query range, in pre-order; membership exactly when the node is in the tree and nested |
| Locator.WithinRangeCollectsWholeTree | src/extension.ts:652-684 | when every child lies inside its parent and the root lies inside the query range, the whole tree is returned in pre-order |
| Locator.FindFirstChildNode | src/extension.ts:565-575 | nothing exactly when there are no children; otherwise the first child named `child` or `children`, or the first child when none is so named |
| Locator.FindLastIndex | src/extension.ts:464-469 | the highest index whose element passes, with no passing element after it; -1 exactly when none passes |
| Locator.DetermineNavigationContext | src/extension.ts:471-495 | `array` exactly when the node's first `children:` named argument contains the position |
| Parents.FindParentNodeExcludingCurrent | src/extension.ts:530-548 | the first node in pre-order with a direct child starting where the current node starts; nothing for a childless root; nothing exactly when no node of the tree has such a child |
| Parents.DirectChildParent | src/extension.ts:533-539 | a direct child of the root has the root as its parent |
| Parents.ProperDescendantHasParent | src/extension.ts:541-545 | every node strictly below the root has a parent |
| Parents.SelfParent | src/extension.ts:530-539 | a root with a child at its own start is the parent of any node starting there, itself included |
| Parents.FindParentOfType | src/extension.ts:620-632 | on the chain of successive parents of the current node: a found node is the first one with the requested kind (and name, unless null); "not found" means the chain ended within the fuel with no earlier node of that kind; running out of fuel means every node within the fuel failed the test |
| Parents.FindParentArray | src/extension.ts:512-528 | on the chain of successive parents: a found node is the first list literal or `children:` argument; "not found" means the chain ended first; running out of fuel means no node within the fuel passed |
| Parents.FindNearestConstructor | src/extension.ts:497-510 | the current node itself when it is a constructor; otherwise the first constructor on the chain of parents, every node before it climbing past a non-`children:` parent; "not found" means the chain ended or reached a `children:` argument before any constructor |
| Parents.ParentWalkFollowsChain | src/extension.ts:512-528 | the loop "step to the parent, stop when it passes the test" returns the first passing node of the parent chain, and gives up exactly when the chain ends before one |
| Parents.ConstructorWalkFollowsChain | src/extension.ts:497-510 | the nearest-constructor loop returns the first constructor on the chain, and gives up exactly when the chain ends or its next node is a `children:` argument |
| Parents.ParentWalkFuelMonotone | src/extension.ts:620-632 | a walk that finished gives the same answer under any larger fuel |
| Parents.NearestConstructorFuelMonotone | src/extension.ts:497-510 | the nearest-constructor walk, once finished, gives the same answer under any larger fuel |
| Parents.ParentWalkDiverges | src/extension.ts:512-528 | a root that fails the walk's test and has a child at its own start makes the upward walk from any node at that start run out of every amount of fuel |
| Parents.NearestConstructorDiverges | src/extension.ts:497-510 | a non-constructor, non-argument root with a child at its own start makes the nearest-constructor loop run forever |
| Parents.ParentStartsEarlier | src/extension.ts:530-548 | when children lie inside parents and starts are distinct, a node's parent starts strictly before it |
| Parents.ParentWalkTerminates | src/extension.ts:620-632 | under the same conditions, the walk ends once the fuel exceeds the number of nodes starting before the first node |
| Parents.ParentWalkTreeSizeFuel | src/extension.ts:512-528 | under the same conditions, fuel of the tree size plus one always suffices |
| Parents.NearestConstructorTerminates | src/extension.ts:497-510 | under the same conditions, the nearest-constructor walk ends within the same bound |
| Parents.NearestConstructorTreeSizeFuel | src/extension.ts:497-510 | under the same conditions, fuel of the tree size plus one suffices for the nearest-constructor walk |
| Cycle.JsRemWraps | src/extension.ts:376-379 | JavaScript's `%` on a value below twice the length subtracts the length at most once |
| Cycle.NextIndex | src/extension.ts:376-379 | the next index is in bounds; from "not found", forward goes to the first element and backward to the last; otherwise one step forward or back, wrapping at either end |
| Cycle.BackwardUndoesForward | src/extension.ts:419-422 | a backward step undoes a forward step, and the other way round |
| Cycle.NextIndexIsSucc | src/extension.ts:376-379 | from a found index, the source's arithmetic is the plain cyclic successor or predecessor |
| Cycle.StepsAreModular | src/extension.ts:376-379 | k forward steps from a found index add k modulo the length; k backward steps subtract it |
| Cycle.FullCycleReturns | src/extension.ts:419-422 | as many steps as there are elements return to the starting index |
| Cycle.FindIndex | src/extension.ts:367-372 | the least index of an element containing the cursor, or -1 exactly when none contains it |
| Cycle.CycleSelect | src/extension.ts:362-388 | nothing exactly for an empty sequence; otherwise the element one step from the one holding the cursor |
| Cycle.FindIndexAtEnd | src/extension.ts:410-415 | with non-empty, ordered, non-overlapping elements, a caret at the end of element k is found at index k |
| Cycle.RepeatFromSelected | src/extension.ts:419-431 | over a fixed list of elements, starting from a selected element, m cyclic steps land on the element m places further along |
| Cycle.RepeatStep | src/extension.ts:410-431 | one navigation from the caret at the end of element k leaves the caret at the end of the next (or previous) element |
| Cycle.CycleClosure | src/extension.ts:405-431 | n cyclic steps over a fixed list of n separated elements return the caret to where it began |
| Params.MatchAt | src/extension.ts:439 | a match at a position is at least three characters long and ends at a comma or the end of the text |
| Params.MatchAtIsSound | src/extension.ts:439 | a computed match is a match of the expression `(\w+)\s*:\s*([^,]+)(,|$)` |
| Params.MatchAtIsComplete | src/extension.ts:439 | every match of the expression from a position is the computed one, so the expression matches in at most one way at each start |
| Params.MatchAtIsRegex | src/extension.ts:439 | the computed match at a position exists and ends at e exactly when the expression matches from that position to e |
| Params.Scan | src/extension.ts:441-449 | for any matcher whose matches are non-empty and stay in the text, every span of the global scan lies inside the text and is the matcher's match at its own start, and the spans are ordered and disjoint |
| Params.ScanCoversMatch | src/extension.ts:441-449 | every position where a match starts lies inside some span of the scan: the scan never skips a match, it can only absorb it into an earlier one |
| Params.Matcher | src/extension.ts:439 | the expression's matcher is valid for the scan, and each of its matches ends after a comma or at the end of the text |
| Params.ExtractParameters | src/extension.ts:437-451 | empty text gives no spans; spans lie inside the text shifted by the base offset; each ends after a comma or at the end of the text |
| Params.ExtractedSpansAreOrdered | src/extension.ts:441-449 | the extracted spans are in order and do not overlap |
| Params.ExtractedSpansAreRegexMatches | src/extension.ts:439-447 | each extracted span, less the base offset, is a match of the expression |
| Params.ExtractedSpansCoverEveryMatch | src/extension.ts:439-447 | every position where the expression matches lies inside an extracted span |
| Params.CommaInsideCallSplits | src/extension.ts:439 | in `a: f(x, y)` the only parameter found is `a: f(x,`; the comma inside the call ends it and `y)` yields nothing |
| Params.SingleParameter | src/extension.ts:437-451 | the text `a: 1` holds exactly one parameter, the whole text |
| Navigate.InnermostConstructor | src/extension.ts:294-311 | nothing exactly when no constructor contains the cursor; otherwise a constructor containing it with the least size, strictly smaller than every earlier one (the head of the stable sort) |
| Navigate.ParameterTarget | src/extension.ts:285-311 | the innermost constructor's node when one contains the cursor, else the node at the cursor |
| Navigate.ArrayAnchor | src/extension.ts:322-344 | the first array-like node from the given index on; nothing exactly when none is array-like |
| Navigate.ArrayLikeIsUnique | src/extension.ts:322-344 | at most one node is array-like for a given cursor |
| Navigate.ParameterRanges | src/extension.ts:348-358 | one range per extracted span, converted by the document's position map from offsets relative to the constructor's start |
| Navigate.ChildRanges | src/extension.ts:396-401 | one range per child, in order, each the child's range |
| Navigate.ChooseNavigation | src/extension.ts:259-348 | no navigation when no node contains the cursor; otherwise the parameter branch is taken exactly when the parameter target is a constructor with parameter text, and navigates that target; the array branch is taken exactly when it is not and some node is array-like at the cursor, and anchors on that node; the array branch's node contains the cursor and has at least one element |
| Navigate.ParameterBranchTaken | src/extension.ts:294-358 | when the innermost constructor at the cursor has parameter text, the navigation is over that constructor's extracted parameter ranges |
| Navigate.ArrayBranchTaken | src/extension.ts:294-401 | when no constructor contains the cursor, the node at the cursor has no parameter branch, and node k is array-like, the navigation is over node k's child ranges |
| Navigate.AnchorIsEveryArrayLike | src/extension.ts:322-344 | the array scan's anchor equals every node of the list that is array-like at the cursor |
| Navigate.ConstructorChoice | src/extension.ts:294-311 | the parameter target is the innermost constructor by size, ties going to the earliest in pre-order, or the node at the cursor when no constructor contains it |
| Navigate.EmptyParametersBlockArrays | src/extension.ts:348-365 | when the parameter target is a constructor with parameter text from which the expression extracts nothing, the parameter branch is still chosen and nothing happens, even with an array-like node present |
| Navigate.ArrayAnchorIsTheArrayLikeNode | src/extension.ts:322-344 | whenever some node of the list is array-like at the cursor, the scan picks exactly that node, wherever it sits in the list |
| Navigate.StepWithin | src/extension.ts:362-388 | nothing exactly when there is no branch or no element; otherwise the selection spans, start to end, the element one cyclic step from the first one holding the cursor |
| Navigate.NavigateParams | src/extension.ts:252-435 | nothing when no node holds the cursor; nothing exactly when neither branch applies or it has no elements; otherwise the new selection spans, start to end, the chosen branch's element one cyclic step from the first one holding the cursor |
| Navigate.StepFromElementEnd | src/extension.ts:367-388 | with the caret at the end of element k of separated elements, a step selects element k+1 (forward) or k-1 (backward), wrapping at either end |
| Navigate.ExampleStepIntoList | src/extension.ts:285-431 | in a list of two constructors `C1`, `C2` with parameter text `a: 1`, a forward step from inside the list but outside both selects `C1` whole |
| Navigate.ExampleStepIntoParameters | src/extension.ts:294-388 | in the same tree, a forward step from the end of `C1` selects `C1`'s one parameter, not `C2` |
| Navigate.ArrayOfConstructorsDoesNotCycle | src/extension.ts:285-431 | two forward steps from inside that list select `C1` and then not `C2`: array navigation over constructors with parameter text does not cycle through the array |
| Commands.IndexOf | src/extension.ts:239 | the first index holding the character, or -1 exactly when the text does not contain it |
| Commands.OffsetAfterParen | src/extension.ts:239-243 | the offset just after the first `(` of the node's text; nothing exactly when there is no `(` |
| Commands.CaretInsideParen | src/extension.ts:232-245 | a caret exactly when the text of the node's range, put in order, holds a `(`, placed at the position of the offset just after the first `(` counted from the node's start |
| Commands.NavigateToParent | src/extension.ts:56-96 | nothing when no node contains the cursor; a cursor not at the found node's start goes to that start; a cursor at its start moves exactly when some node of the tree has a child starting there, and then to the start of the first such node in pre-order |
| Commands.ParentSkipsSharedStart | src/extension.ts:68-93 | in `R[X, Y[Z]]` with `Y` and `Z` both starting at (0,5), a caret at (0,5) goes to the root's start, not to `Y`'s |
| Commands.ParentOfTopLevelNode | src/extension.ts:77-93 | a caret at the start of a direct child of the root, that child being the node found there, moves to the root's start |
| Commands.ParentInTwoSteps | src/extension.ts:68-93 | the first step goes to the node's start; when the same node is found there, the second step goes to its parent's start |
| Commands.NavigateToChild | src/extension.ts:99-145 | nothing when no node contains the cursor; a node with children sends the caret to the start of its first `child`/`children` child, or of its first child; a childless node enters at the offset after its first `(`, and moves exactly when its text holds one |
| Commands.ChildOfLeafEntersWidget | src/extension.ts:122-141 | on a node without children, navigating to a child does what entering the widget does |
| Commands.EnterWidget | src/extension.ts:217-249 | nothing when no node contains the cursor; otherwise a caret exactly when the node's text holds a `(`, at the position of the offset just after the first `(` counted from the node's start |
| Commands.Spanning | src/extension.ts:191-210 | the selection over a range runs from its earlier end to its later end, so a reversed range is put in order, and a well-formed one is kept as it is |
| Commands.SelectCurrentBlock | src/extension.ts:169-214 | the new selection is always a whole node's range, put in order; with an empty selection, a result exists exactly when the root contains the caret, and it spans the node `findNodeAtPosition` returns, which contains the caret while none of its children does; with a non-empty one, nothing when no node has exactly the selected range, otherwise a result exactly when some node has a child starting at the selection's start, and then it spans the first such node in pre-order |
| Commands.SelectionSkipsSharedStart | src/extension.ts:182-198 | in the same tree, selecting exactly `Z` selects the whole root, not `Y` |
| Commands.SelectionGrowsToRoot | src/extension.ts:182-198 | selecting exactly a non-empty direct child of the root grows the selection to the root's whole range |
| Commands.RunCommand | src/extension.ts:54-250 | nothing happens outside Dart files or without an outline; outside the outline's range only block selection can act |

## Left out

- Activation, the lookup of the Dart extension's private interface,
  command registration and `deactivate` (src/extension.ts:27-54 and
  686-688) are host wiring. The outline reaches the model as an
  `Option<Node>` argument.
- Editor I/O is not modelled: `revealRange`, the assignment to
  `editor.selection` and all `console.log` calls. A command's effect is its
  returned selection.
- `document.offsetAt`, `positionAt`, `getText` and the last line's length
  are given functions and values of `TextDocument`. Nothing is assumed
  about them, so properties that would need them to be inverse
  conversions are not stated.
- Positions and string offsets count characters; the editor and
  JavaScript strings (`indexOf`, a match's `index`) count UTF-16 code
  units. The model does not distinguish them.
- Outline positions are assumed non-negative. `new vscode.Position` throws
  on a negative line or character (for example src/extension.ts:73-76,
  192-193 and 242), so for such an outline the source's command fails and
  leaves the selection unchanged, while the model computes a selection
  from the negative position.
- `findNextCommaPosition` (src/extension.ts:453-462) is never called and
  reads a line through `lineAt`. It is not modelled.
- The module-level `currentArrayContext` (src/extension.ts:25) is never
  read or written after its declaration.
- Navigate.InnermostConstructor: models only the head of the stable sort
  (src/extension.ts:299-307), the only element the code reads, not the
  whole sorted list.
- Parents.FindParentOfType, Parents.FindParentArray and
  Parents.FindNearestConstructor: their `while` loops can run forever (see
  Parents.ParentWalkDiverges), so each takes a fuel bound and reports
  running out as `OutOfFuel`. Fuel of the tree size plus one is proved
  enough for well-nested trees with distinct starts.
- Object identity (`otherNode !== node` at src/extension.ts:333) is
  modelled as index inequality in the list of collected nodes. Two
  structurally equal nodes at different places therefore count as
  different, as distinct objects would.
- An absent `children` list is the empty sequence. An absent or empty
  `parameters` string is the same "no parameter text" for the test at
  src/extension.ts:348.
- The optional element fields `typeParameters` and `returnType`, and the
  element's own range, are not modelled. No navigation code reads them.

=== FILE: commands.dfy ===
/**
  The editor commands as pure decisions: each takes the outline (if the
  analysis service supplied one), the document and the current selection,
  and returns the new selection, or nothing when the selection stays put.
 */
module Commands {
  import opened Wrappers
  import opened Geometry
  import opened Outline
  import opened Locator
  import opened Parents
  import opened Navigate

  /** `text.indexOf(c)`: the first index holding `c`, or -1. */
  function IndexOf(text: string, c: char): (r: int)
    ensures -1 <= r < |text|
    ensures r >= 0 ==> text[r] == c && forall j :: 0 <= j < r ==> text[j] != c
    ensures r == -1 <==> c !in text
  {
    if text == [] then -1
    else if text[0] == c then 0
    else var k := IndexOf(text[1..], c);
      assert forall j :: 1 <= j < |text| ==> text[j] == text[1..][j - 1];
      assert c in text ==> text[0] == c || c in text[1..];
      if k == -1 then -1 else k + 1
  }

  /** The caret offset just after the first `(` of a node's text, which starts at offset `nodeStart`. */
  function OffsetAfterParen(text: string, nodeStart: nat): (r: Option<nat>)
    ensures r.None? <==> '(' !in text
    ensures r.Some? ==> nodeStart < r.value <= nodeStart + |text|
    ensures r.Some? ==> text[r.value - nodeStart - 1] == '('
    ensures r.Some? ==> forall j :: 0 <= j < r.value - nodeStart - 1 ==> text[j] != '('
  {
    var i := IndexOf(text, '(');
    if i == -1 then None else Some(nodeStart + i + 1)
  }

  /** The caret just inside a node's first `(`, if its text has one. */
  function CaretInsideParen(n: Node, doc: TextDocument): (r: Option<Selection>)
    ensures r.Some? <==> '(' in doc.getText(Ordered(n.range))
    ensures r.Some? ==> r.value.IsEmpty()
    ensures r.Some? ==>
      r.value == Caret(doc.positionAt(doc.offsetAt(n.range.start) + IndexOf(doc.getText(Ordered(n.range)), '(') + 1))
  {
    match OffsetAfterParen(doc.getText(Ordered(n.range)), doc.offsetAt(n.range.start))
    case None => None
    case Some(o) => Some(Caret(doc.positionAt(o)))
  }

  /** navigateToParent: go to the start of the node at the cursor; when
      already there, go to the start of its parent. */
  function NavigateToParent(root: Node, cursor: Position): (r: Option<Selection>)
    ensures r.Some? ==> r.value.IsEmpty() && exists x :: x in Preorder(root) && r.value.active == x.range.start
    ensures FindNodeAtPosition(root, cursor).None? ==> r.None?
    ensures r.Some? && r.value.active == cursor ==> FindNodeAtPosition(root, cursor).value.range.start == cursor
    ensures FindNodeAtPosition(root, cursor).Some? && cursor != FindNodeAtPosition(root, cursor).value.range.start ==>
      r == Some(Caret(FindNodeAtPosition(root, cursor).value.range.start))
    ensures FindNodeAtPosition(root, cursor).Some? && cursor == FindNodeAtPosition(root, cursor).value.range.start ==>
      (r.Some? <==> exists p :: p in Preorder(root) && HasChildStartingAt(p, cursor))
    ensures FindNodeAtPosition(root, cursor).Some? && cursor == FindNodeAtPosition(root, cursor).value.range.start && r.Some? ==>
      exists p :: p in Preorder(root) && HasChildStartingAt(p, cursor) && r.value == Caret(p.range.start)
    ensures FindNodeAtPosition(root, cursor).Some? && cursor == FindNodeAtPosition(root, cursor).value.range.start && r.Some? ==>
      FirstWhere(Preorder(root), ParentTest(cursor)).Some? &&
      r.value == Caret(FirstWhere(Preorder(root), ParentTest(cursor)).value.range.start)
  {
    match FindNodeAtPosition(root, cursor)
    case None => None
    case Some(current) =>
      if cursor != current.range.start then Some(Caret(current.range.start))
      else match FindParentNodeExcludingCurrent(root, current)
        case None => None
        case Some(p) => Some(Caret(p.range.start))
  }

  /** A caret at the start of the innermost node that is a direct child of the root goes to the root's start. */
  lemma ParentOfTopLevelNode(root: Node, i: nat)
    requires i < |root.children|
    requires FindNodeAtPosition(root, root.children[i].range.start) == Some(root.children[i])
    ensures NavigateToParent(root, root.children[i].range.start) == Some(Caret(root.range.start))
  {
    DirectChildParent(root, i);
  }

  /** A caret away from the start of its node first moves to that start, and
      when the node found there is the same, the next step goes to the parent. */
  lemma ParentInTwoSteps(root: Node, cursor: Position)
    requires FindNodeAtPosition(root, cursor).Some?
    requires var n := FindNodeAtPosition(root, cursor).value;
      cursor != n.range.start && FindNodeAtPosition(root, n.range.start) == Some(n)
    ensures var n := FindNodeAtPosition(root, cursor).value;
      && NavigateToParent(root, cursor) == Some(Caret(n.range.start))
      && NavigateToParent(root, n.range.start) ==
           (match FindParentNodeExcludingCurrent(root, n)
            case None => None
            case Some(p) => Some(Caret(p.range.start)))
  {
  }

  /** navigateToChild: go to the start of the preferred child; for a node
      without children, go just inside its first `(`. */
  function NavigateToChild(root: Node, doc: TextDocument, cursor: Position): (r: Option<Selection>)
    ensures FindNodeAtPosition(root, cursor).None? ==> r.None?
    ensures r.Some? ==> r.value.IsEmpty()
    ensures FindNodeAtPosition(root, cursor).Some? && |FindNodeAtPosition(root, cursor).value.children| > 0 ==>
      r.Some? && exists i :: (0 <= i < |FindNodeAtPosition(root, cursor).value.children|
        && r.value.active == FindNodeAtPosition(root, cursor).value.children[i].range.start)
    ensures FindNodeAtPosition(root, cursor).Some? && |FindNodeAtPosition(root, cursor).value.children| > 0 ==>
      r == Some(Caret(FindFirstChildNode(FindNodeAtPosition(root, cursor).value).value.range.start))
    ensures FindNodeAtPosition(root, cursor).Some? && |FindNodeAtPosition(root, cursor).value.children| == 0 ==>
      var n := FindNodeAtPosition(root, cursor).value;
      && (r.Some? <==> '(' in doc.getText(Ordered(n.range)))
      && (r.Some? ==> r.value == Caret(doc.positionAt(doc.offsetAt(n.range.start) + IndexOf(doc.getText(Ordered(n.range)), '(') + 1)))
  {
    match FindNodeAtPosition(root, cursor)
    case None => None
    case Some(current) =>
      match FindFirstChildNode(current)
      case Some(child) => Some(Caret(child.range.start))
      case None => CaretInsideParen(current, doc)
  }

  /** enterWidget: go just inside the first `(` of the node at the cursor. */
  function EnterWidget(root: Node, doc: TextDocument, cursor: Position): (r: Option<Selection>)
    ensures FindNodeAtPosition(root, cursor).None? ==> r.None?
    ensures FindNodeAtPosition(root, cursor).Some? ==>
      (r.Some? <==> '(' in doc.getText(Ordered(FindNodeAtPosition(root, cursor).value.range)))
    ensures r.Some? ==> r.value.IsEmpty()
    ensures r.Some? ==> var n := FindNodeAtPosition(root, cursor).value;
      r.value == Caret(doc.positionAt(doc.offsetAt(n.range.start) + IndexOf(doc.getText(Ordered(n.range)), '(') + 1))
  {
    match FindNodeAtPosition(root, cursor)
    case None => None
    case Some(current) => CaretInsideParen(current, doc)
  }

  /** On a node without children, navigating to a child is entering the widget. */
  lemma ChildOfLeafEntersWidget(root: Node, doc: TextDocument, cursor: Position)
    requires FindNodeAtPosition(root, cursor).Some? && FindNodeAtPosition(root, cursor).value.children == []
    ensures NavigateToChild(root, doc, cursor) == EnterWidget(root, doc, cursor)
  {
  }

  /** The selection over a node's whole range as the editor builds it: the
      `Range` constructor puts the earlier position first, and the selection
      runs from that start to that end. */
  function Spanning(r: Range): (s: Selection)
    ensures Le(s.anchor, s.active)
    ensures (s.anchor == r.start && s.active == r.end) || (s.anchor == r.end && s.active == r.start)
    ensures WellFormed(r) ==> s == Selection(r.start, r.end)
  {
    Selection(Ordered(r).start, Ordered(r).end)
  }

  /** selectCurrentBlock: with an empty selection, select the innermost node
      at the caret; otherwise find the node selected exactly and select its
      parent's whole range. */
  function SelectCurrentBlock(root: Node, selection: Selection): (r: Option<Selection>)
    ensures r.Some? ==> exists x :: x in Preorder(root) && r.value == Spanning(x.range)
    ensures selection.IsEmpty() ==> (r.Some? <==> Within(selection.active, root.range))
    ensures selection.IsEmpty() && r.Some? ==>
      exists x :: x in Preorder(root) && r.value == Spanning(x.range) && Within(selection.active, x.range)
        && forall c :: c in x.children ==> !Within(selection.active, c.range)
    ensures !selection.IsEmpty() && (forall y :: y in Preorder(root) ==> y.range != Range(selection.Start(), selection.End())) ==>
      r.None?
    ensures !selection.IsEmpty() && (exists y :: y in Preorder(root) && y.range == Range(selection.Start(), selection.End())) ==>
      (r.Some? <==> exists x :: x in Preorder(root) && HasChildStartingAt(x, selection.Start()))
    ensures !selection.IsEmpty() && r.Some? ==>
      exists x :: x in Preorder(root) && r.value == Spanning(x.range)
        && HasChildStartingAt(x, selection.Start())
    ensures !selection.IsEmpty() && r.Some? ==>
      FirstWhere(Preorder(root), ParentTest(selection.Start())).Some? &&
      r.value == Spanning(FirstWhere(Preorder(root), ParentTest(selection.Start())).value.range)
    ensures selection.IsEmpty() && r.Some? ==>
      r.value == Spanning(FindNodeAtPosition(root, selection.active).value.range)
  {
    SmallestIsNodeAtPosition(root, selection.active);
    if !selection.IsEmpty() then
      match FindExactNode(root, selection.Start(), selection.End())
      case None => None
      case Some(current) =>
        match FindParentNodeExcludingCurrent(root, current)
        case None => None
        case Some(p) => Some(Spanning(p.range))
    else
      match FindSmallestNode(root, selection.active)
      case None => None
      case Some(n) => Some(Spanning(n.range))
  }

  /** Selecting exactly a direct child of the root grows the selection to the whole root. */
  lemma SelectionGrowsToRoot(root: Node, i: nat)
    requires i < |root.children|
    requires Lt(root.children[i].range.start, root.children[i].range.end)
    ensures var c := root.children[i].range;
      SelectCurrentBlock(root, Selection(c.start, c.end)) == Some(Spanning(root.range))
  {
    var c := root.children[i];
    ChildInPreorder(root, i);
    var x := FindExactNode(root, c.range.start, c.range.end).value;
    assert HasChildStartingAt(root, x.range.start);
  }

  /** Parents are found by start position, so a node whose real parent
      starts where it does is attributed to the first node in pre-order with
      a child at that start. In `R[X, Y[Z]]`, with `Y` and `Z` both starting
      at (0,5), a caret at (0,5) goes to the root's start, and selecting
      exactly `Z` selects the whole root rather than `Y`. */
  const LeafX := Node("X", "", None, Range(Position(0, 0), Position(0, 4)), [])
  const LeafZ := Node("Z", "", None, Range(Position(0, 5), Position(0, 9)), [])
  const NodeY := Node("Y", "", None, Range(Position(0, 5), Position(0, 20)), [LeafZ])
  const SharedStartRoot := Node("R", "", None, Range(Position(0, 0), Position(0, 20)), [LeafX, NodeY])

  lemma SharedStartNodeAt()
    ensures FindNodeAtPosition(SharedStartRoot, Position(0, 5)) == Some(LeafZ)
  {
    assert FindNodeAtPosition(LeafZ, Position(0, 5)) == Some(LeafZ);
    assert FindNodeAtPositionAll([LeafZ], Position(0, 5)) == Some(LeafZ);
    assert FindNodeAtPosition(NodeY, Position(0, 5)) == Some(LeafZ);
    assert [LeafX, NodeY][1..] == [NodeY];
    assert FindNodeAtPositionAll([LeafX, NodeY], Position(0, 5)) == Some(LeafZ);
  }

  lemma ParentSkipsSharedStart()
    ensures NavigateToParent(SharedStartRoot, Position(0, 5)) == Some(Caret(SharedStartRoot.range.start))
    ensures NodeY.range.start != SharedStartRoot.range.start
  {
    SharedStartNodeAt();
    DirectChildParent(SharedStartRoot, 1);
  }

  lemma SelectionSkipsSharedStart()
    ensures SelectCurrentBlock(SharedStartRoot, Selection(LeafZ.range.start, LeafZ.range.end))
      == Some(Spanning(SharedStartRoot.range))
    ensures Spanning(NodeY.range) != Spanning(SharedStartRoot.range)
  {
    ChildInPreorder(SharedStartRoot, 1);
    ChildInPreorder(NodeY, 0);
    PreorderTransitive(SharedStartRoot, NodeY, LeafZ);
    assert HasChildStartingAt(SharedStartRoot, LeafZ.range.start);
    assert ParentTest(LeafZ.range.start)(Preorder(SharedStartRoot)[0]);
  }

  /** The six commands the extension registers. */
  datatype Command =
    | NavigateToParentCommand
    | NavigateToChildCommand
    | NavigateNextParamCommand
    | NavigatePrevParamCommand
    | SelectCurrentBlockCommand
    | EnterWidgetCommand

  /** A command run against the editor: nothing happens outside Dart files or
      without an outline; otherwise the handler decides, from the caret
      (`selection.active`) or, for block selection, the whole selection. */
  function RunCommand(cmd: Command, languageId: string, outline: Option<Node>, doc: TextDocument, selection: Selection)
    : (r: Option<Selection>)
    ensures languageId != "dart" || outline.None? ==> r.None?
    ensures outline.Some? && !Within(selection.active, outline.value.range) && cmd != SelectCurrentBlockCommand ==> r.None?
  {
    if languageId != "dart" then None
    else match outline
      case None => None
      case Some(root) =>
        match cmd
        case NavigateToParentCommand => NavigateToParent(root, selection.active)
        case NavigateToChildCommand => NavigateToChild(root, doc, selection.active)
        case NavigateNextParamCommand => NavigateParams(root, doc, selection.active, true)
        case NavigatePrevParamCommand => NavigateParams(root, doc, selection.active, false)
        case SelectCurrentBlockCommand => SelectCurrentBlock(root, selection)
        case EnterWidgetCommand => EnterWidget(root, doc, selection.active)
  }
}

=== FILE: cycle.dfy ===
/**
  The cyclic step shared by both branches of parameter navigation: find the
  first element containing the cursor, then move one index forward or
  backward with wraparound, and select that element from start to end.
 */
module Cycle {
  import opened Wrappers
  import opened Geometry

  /** JavaScript's `%`: the remainder takes the sign of the dividend. */
  function JsRem(a: int, n: int): (r: int)
    requires n != 0
  {
    var m := if n < 0 then -n else n;
    if a >= 0 then a % m else -((-a) % m)
  }

  /** Euclidean division is determined by any quotient-remainder decomposition. */
  lemma DivModOf(a: int, n: int, q: int, r: int)
    requires n > 0 && 0 <= r < n && a == q * n + r
    ensures a % n == r && a / n == q
  {
    var d := q - a / n;
    assert d * n == a % n - r;
  }

  lemma ModShiftByN(a: int, n: int)
    requires n > 0
    ensures (a + n) % n == a % n && (a - n) % n == a % n
  {
    DivModOf(a + n, n, a / n + 1, a % n);
    DivModOf(a - n, n, a / n - 1, a % n);
  }

  /** Below twice the modulus, the remainder subtracts the modulus at most once. */
  lemma JsRemWraps(a: int, n: int)
    requires n > 0 && 0 <= a < 2 * n
    ensures JsRem(a, n) == if a < n then a else a - n
  {
    if a < n {
      DivModOf(a, n, 0, a);
    } else {
      DivModOf(a, n, 1, a - n);
    }
  }

  /** The index arithmetic of `navigateParams`: `current` is a found index or -1. */
  function NextIndex(current: int, n: int, forward: bool): (r: int)
    requires n > 0 && -1 <= current < n
    ensures 0 <= r < n
    ensures current == -1 ==> r == (if forward then 0 else n - 1)
    ensures current >= 0 && forward ==> r == (if current == n - 1 then 0 else current + 1)
    ensures current >= 0 && !forward ==> r == (if current == 0 then n - 1 else current - 1)
  {
    if forward then
      JsRemWraps(current + 1, n);
      JsRem(current + 1, n)
    else if current == -1 then n - 1
    else
      JsRemWraps(current - 1 + n, n);
      JsRem(current - 1 + n, n)
  }

  /** One step backward undoes one step forward, and the other way round. */
  lemma BackwardUndoesForward(i: int, n: int)
    requires 0 <= i < n
    ensures NextIndex(NextIndex(i, n, true), n, false) == i
    ensures NextIndex(NextIndex(i, n, false), n, true) == i
  {
  }

  /** One step from a found index, wrapping at either end: the reference for `NextIndex`. */
  function Succ(i: int, n: int, forward: bool): int {
    if forward then (if i == n - 1 then 0 else i + 1)
    else (if i == 0 then n - 1 else i - 1)
  }

  /** From a found index, the source's arithmetic is the plain cyclic step. */
  lemma NextIndexIsSucc(i: int, n: int, forward: bool)
    requires 0 <= i < n
    ensures NextIndex(i, n, forward) == Succ(i, n, forward)
  {
  }

  /** The index after `k` steps in one direction from a found index. */
  function Steps(i: int, n: int, forward: bool, k: nat): (r: int)
    requires 0 <= i < n
    ensures 0 <= r < n
    decreases k
  {
    if k == 0 then i else Steps(Succ(i, n, forward), n, forward, k - 1)
  }

  /** From a found index, `k` forward steps add `k` modulo `n`, and `k` backward steps subtract it. */
  lemma {:induction false} StepsAreModular(i: int, n: int, forward: bool, k: nat)
    requires 0 <= i < n
    ensures Steps(i, n, forward, k) == if forward then (i + k) % n else (i - k) % n
    decreases k
  {
    if k == 0 {
      DivModOf(i, n, 0, i);
    } else {
      var j := Succ(i, n, forward);
      StepsAreModular(j, n, forward, k - 1);
      if forward && i == n - 1 {
        ModShiftByN(k - 1, n);
      } else if !forward && i == 0 {
        ModShiftByN(-(k as int), n);
      }
    }
  }

  /** `n` steps in either direction return to the starting index. */
  lemma FullCycleReturns(i: int, n: int, forward: bool)
    requires 0 <= i < n
    ensures Steps(i, n, forward, n) == i
  {
    StepsAreModular(i, n, forward, n);
    ModShiftByN(i, n);
    DivModOf(i, n, 0, i);
  }

  /** `findIndex` of the first element containing the cursor, or -1. */
  function FindIndex(elements: seq<Range>, cursor: Position): (r: int)
    ensures -1 <= r < |elements|
    ensures r >= 0 ==> Within(cursor, elements[r]) && forall j :: 0 <= j < r ==> !Within(cursor, elements[j])
    ensures r == -1 <==> forall j :: 0 <= j < |elements| ==> !Within(cursor, elements[j])
  {
    if elements == [] then -1
    else if Within(cursor, elements[0]) then 0
    else var k := FindIndex(elements[1..], cursor);
      assert forall j :: 1 <= j < |elements| ==> elements[j] == elements[1..][j - 1];
      if k == -1 then -1 else k + 1
  }

  /** One navigation step: nothing for an empty sequence, else the element
      after (or before) the one holding the cursor, with wraparound. */
  function CycleSelect(elements: seq<Range>, cursor: Position, forward: bool): (r: Option<Range>)
    ensures r.None? <==> |elements| == 0
    ensures r.Some? ==> r.value in elements
    ensures r.Some? ==> var i := FindIndex(elements, cursor);
      r.value == elements[NextIndex(i, |elements|, forward)]
  {
    if |elements| == 0 then None
    else Some(elements[NextIndex(FindIndex(elements, cursor), |elements|, forward)])
  }

  /** Elements that are non-empty and laid out in order, each ending no later than the next starts. */
  ghost predicate Separated(elements: seq<Range>) {
    && (forall i {:trigger Lt(elements[i].start, elements[i].end)} ::
          0 <= i < |elements| ==> Lt(elements[i].start, elements[i].end))
    && (forall i, j {:trigger Le(elements[i].end, elements[j].start)} ::
          0 <= i < j < |elements| ==> Le(elements[i].end, elements[j].start))
  }

  /** With separated elements, the end of element `k` is found at index `k`. */
  lemma FindIndexAtEnd(elements: seq<Range>, k: nat)
    requires Separated(elements) && k < |elements|
    ensures FindIndex(elements, elements[k].end) == k
  {
    assert Lt(elements[k].start, elements[k].end);
    forall j | 0 <= j < k ensures !Within(elements[k].end, elements[j]) {
      assert Le(elements[j].end, elements[k].start);
      LeIsTotalOrder(elements[j].end, elements[k].start, elements[k].end);
      WithinIsInclusiveInterval(elements[k].end, elements[j]);
    }
    WithinIsInclusiveInterval(elements[k].end, elements[k]);
  }

  /** The cursor after `m` repeated steps; a step selects an element start to end, leaving the caret at its end. */
  function Repeat(elements: seq<Range>, cursor: Position, forward: bool, m: nat): (r: Position)
    decreases m
  {
    if m == 0 then cursor
    else match CycleSelect(elements, cursor, forward)
      case None => cursor
      case Some(e) => Repeat(elements, e.end, forward, m - 1)
  }

  /** Starting from a selected element, `m` steps land on the element `m` further along, cyclically. */
  lemma {:induction false} RepeatFromSelected(elements: seq<Range>, k: nat, forward: bool, m: nat)
    requires Separated(elements) && k < |elements|
    ensures Repeat(elements, elements[k].end, forward, m) == elements[Steps(k, |elements|, forward, m)].end
    decreases m
  {
    if m > 0 {
      RepeatStep(elements, k, forward, m);
      RepeatFromSelected(elements, Succ(k, |elements|, forward), forward, m - 1);
    }
  }

  /** One navigation from the end of element `k` moves the caret to the end of the next (or previous) element. */
  lemma RepeatStep(elements: seq<Range>, k: nat, forward: bool, m: nat)
    requires Separated(elements) && k < |elements| && m > 0
    ensures Repeat(elements, elements[k].end, forward, m)
         == Repeat(elements, elements[Succ(k, |elements|, forward)].end, forward, m - 1)
  {
    FindIndexAtEnd(elements, k);
    NextIndexIsSucc(k, |elements|, forward);
  }

  /** Navigating `n` times over `n` separated elements comes back to the start. */
  lemma CycleClosure(elements: seq<Range>, k: nat, forward: bool)
    requires Separated(elements) && k < |elements|
    ensures Repeat(elements, elements[k].end, forward, |elements|) == elements[k].end
  {
    RepeatFromSelected(elements, k, forward, |elements|);
    FullCycleReturns(k, |elements|, forward);
  }
}

=== FILE: geometry.dfy ===
/**
  Range geometry of the outline navigator: zero-based (line, character)
  positions, ranges of two positions, and the two range predicates the
  navigation code uses — cursor containment and range nesting.
 */
module Geometry {

  datatype Position = Position(line: int, character: int)

  datatype Range = Range(start: Position, end: Position)

  /** An editor selection; `active` is where the caret sits. */
  datatype Selection = Selection(anchor: Position, active: Position)
  {
    predicate IsEmpty() { anchor == active }

    /** The earlier of the two ends (the editor's `selection.start`). */
    function Start(): Position { if Le(anchor, active) then anchor else active }

    /** The later of the two ends (the editor's `selection.end`). */
    function End(): Position { if Le(anchor, active) then active else anchor }
  }

  function Caret(p: Position): Selection { Selection(p, p) }

  /** Lexicographic (line, character) order: an independent reference for the predicates below. */
  predicate Le(a: Position, b: Position) {
    a.line < b.line || (a.line == b.line && a.character <= b.character)
  }

  predicate Lt(a: Position, b: Position) { Le(a, b) && a != b }

  predicate WellFormed(r: Range) { Le(r.start, r.end) }

  /** The editor's `new Range(a, b)`: whichever position comes first becomes the start. */
  function Ordered(r: Range): (o: Range)
    ensures WellFormed(o)
    ensures o == r || o == Range(r.end, r.start)
    ensures WellFormed(r) ==> o == r
  {
    if Le(r.start, r.end) then r else Range(r.end, r.start)
  }

  /** `isPositionWithinRange`: the position is neither before the start nor after the end. */
  predicate Within(p: Position, r: Range) {
    && (p.line > r.start.line || (p.line == r.start.line && p.character >= r.start.character))
    && (p.line < r.end.line || (p.line == r.end.line && p.character <= r.end.character))
  }

  /** The test inside `findAllNodesWithinRange`: `inner` lies inside `outer`. */
  predicate NestedIn(inner: Range, outer: Range) {
    && inner.start.line >= outer.start.line
    && inner.end.line <= outer.end.line
    && (inner.start.line > outer.start.line || inner.start.character >= outer.start.character)
    && (inner.end.line < outer.end.line || inner.end.character <= outer.end.character)
  }

  /** The ranking key of the innermost-constructor sort: line span times 1000 plus character span. */
  function Size(r: Range): int {
    (r.end.line - r.start.line) * 1000 + (r.end.character - r.start.character)
  }

  lemma LeIsTotalOrder(a: Position, b: Position, c: Position)
    ensures Le(a, a)
    ensures Le(a, b) || Le(b, a)
    ensures Le(a, b) && Le(b, a) ==> a == b
    ensures Le(a, b) && Le(b, c) ==> Le(a, c)
  {
  }

  /** Containment is exactly "start <= p <= end" in the lexicographic order, inclusive at both ends. */
  lemma WithinIsInclusiveInterval(p: Position, r: Range)
    ensures Within(p, r) <==> Le(r.start, p) && Le(p, r.end)
  {
  }

  /** A well-formed range contains its own two ends; nothing before its start or after its end. */
  lemma WithinEndpoints(r: Range, p: Position)
    ensures Within(r.start, r) <==> WellFormed(r)
    ensures Within(r.end, r) <==> WellFormed(r)
    ensures Lt(p, r.start) ==> !Within(p, r)
    ensures Lt(r.end, p) ==> !Within(p, r)
  {
  }

  /** Nesting compares the two starts and the two ends lexicographically. */
  lemma NestedInIsEndpointOrder(inner: Range, outer: Range)
    ensures NestedIn(inner, outer) <==> Le(outer.start, inner.start) && Le(inner.end, outer.end)
  {
  }

  /** For a well-formed inner range, nesting is containment of both of its ends. */
  lemma NestedInIffEndsWithin(inner: Range, outer: Range)
    requires WellFormed(inner)
    ensures NestedIn(inner, outer) <==> Within(inner.start, outer) && Within(inner.end, outer)
  {
  }

  /** Nesting is reflexive and transitive. */
  lemma NestedInPreorder(a: Range, b: Range, c: Range)
    ensures NestedIn(a, a)
    ensures NestedIn(a, b) && NestedIn(b, c) ==> NestedIn(a, c)
  {
  }

  /** A position inside a nested range is inside the enclosing range. */
  lemma WithinNested(p: Position, inner: Range, outer: Range)
    requires NestedIn(inner, outer) && Within(p, inner)
    ensures Within(p, outer)
  {
  }

  /** While every character index lies in [0, 500] the ranking key respects
      nesting: a range inside another never has the larger key. (500 is the
      widest bound that works: one line of span is worth 1000.) */
  lemma SizeRanksNestedRanges(inner: Range, outer: Range)
    requires NestedIn(inner, outer)
    requires 0 <= inner.start.character <= 500 && 0 <= inner.end.character <= 500
    requires 0 <= outer.start.character <= 500 && 0 <= outer.end.character <= 500
    ensures Size(inner) <= Size(outer)
  {
  }

  /** Past that bound the key can rank an enclosing range below one it
      encloses: a long one-line range inside a short two-line range. */
  lemma SizeMisranksLongLines()
    ensures var outer := Range(Position(0, 0), Position(1, 5));
      var inner := Range(Position(0, 10), Position(0, 1100));
      NestedIn(inner, outer) && Size(outer) < Size(inner)
  {
  }
}

=== FILE: locator.dfy ===
/**
  Node location in the outline tree: the innermost node at a position, the
  node with an exact range, all nodes of a kind or inside a range, the
  preferred child of a node, and the context classification of a node.
 */
module Locator {
  import opened Wrappers
  import opened Geometry
  import opened Outline

  /** `findNodeAtPosition`: nothing if the node does not contain the position,
      otherwise the first child's hit, descending innermost, else the node itself. */
  function FindNodeAtPosition(n: Node, p: Position): (r: Option<Node>)
    ensures r.None? <==> !Within(p, n.range)
    ensures r.Some? ==> r.value in Preorder(n) && Within(p, r.value.range)
    ensures r.Some? ==> forall c :: c in r.value.children ==> !Within(p, c.range)
    decreases n
  {
    if !Within(p, n.range) then None
    else match FindNodeAtPositionAll(n.children, p)
      case Some(f) => Some(f)
      case None => Some(n)
  }

  function FindNodeAtPositionAll(ns: seq<Node>, p: Position): (r: Option<Node>)
    ensures r.None? <==> forall c :: c in ns ==> !Within(p, c.range)
    ensures r.Some? ==> r.value in PreorderAll(ns) && Within(p, r.value.range)
    ensures r.Some? ==> forall c :: c in r.value.children ==> !Within(p, c.range)
    decreases ns
  {
    if ns == [] then None
    else match FindNodeAtPosition(ns[0], p)
      case Some(f) => Some(f)
      case None => FindNodeAtPositionAll(ns[1..], p)
  }

  /** `findSmallestNode`: the source repeats the text of `findNodeAtPosition` under a second name. */
  function FindSmallestNode(n: Node, p: Position): (r: Option<Node>)
    decreases n
  {
    if !Within(p, n.range) then None
    else match FindSmallestNodeAll(n.children, p)
      case Some(f) => Some(f)
      case None => Some(n)
  }

  function FindSmallestNodeAll(ns: seq<Node>, p: Position): (r: Option<Node>)
    decreases ns
  {
    if ns == [] then None
    else match FindSmallestNode(ns[0], p)
      case Some(f) => Some(f)
      case None => FindSmallestNodeAll(ns[1..], p)
  }

  /** The two searches agree on every tree and position. */
  lemma {:induction false} SmallestIsNodeAtPosition(n: Node, p: Position)
    ensures FindSmallestNode(n, p) == FindNodeAtPosition(n, p)
    decreases n
  {
    SmallestIsNodeAtPositionAll(n.children, p);
  }

  lemma {:induction false} SmallestIsNodeAtPositionAll(ns: seq<Node>, p: Position)
    ensures FindSmallestNodeAll(ns, p) == FindNodeAtPositionAll(ns, p)
    decreases ns
  {
    if ns != [] {
      SmallestIsNodeAtPosition(ns[0], p);
      SmallestIsNodeAtPositionAll(ns[1..], p);
    }
  }

  /** In a well-nested tree the node found lies inside the node the search started from. */
  lemma {:induction false} NodeAtPositionNested(n: Node, p: Position)
    requires WellNested(n)
    requires FindNodeAtPosition(n, p).Some?
    ensures NestedIn(FindNodeAtPosition(n, p).value.range, n.range)
    decreases n
  {
    NestedInPreorder(n.range, n.range, n.range);
    var k := FirstHit(n.children, p);
    if k < |n.children| {
      var c := n.children[k];
      NodeAtPositionNested(c, p);
      NestedInPreorder(FindNodeAtPosition(c, p).value.range, c.range, n.range);
    }
  }

  /** The index of the child the search descends into (the length when none contains the position). */
  function FirstHit(ns: seq<Node>, p: Position): (k: nat)
    ensures k <= |ns|
    ensures k < |ns| ==> FindNodeAtPosition(ns[k], p).Some? && FindNodeAtPositionAll(ns, p) == FindNodeAtPosition(ns[k], p)
    ensures k == |ns| ==> FindNodeAtPositionAll(ns, p).None?
    decreases ns
  {
    if ns == [] then 0
    else if FindNodeAtPosition(ns[0], p).Some? then 0
    else 1 + FirstHit(ns[1..], p)
  }

  /** Test used by `findExactNode`: the node's start and end both equal the query. */
  function RangeIs(start: Position, end: Position): Node -> bool
  {
    (x: Node) => x.range == Range(start, end)
  }

  /** `findExactNode`: the first node in pre-order whose range is exactly `start`..`end`. */
  function FindExactNode(n: Node, start: Position, end: Position): (r: Option<Node>)
    ensures r == FirstWhere(Preorder(n), RangeIs(start, end))
    ensures r.Some? ==> r.value in Preorder(n) && r.value.range == Range(start, end)
    ensures r.None? <==> forall x :: x in Preorder(n) ==> x.range != Range(start, end)
  {
    DepthFirstIsFirstInPreorder(n, RangeIs(start, end));
    FirstWhereIsLeast(Preorder(n), RangeIs(start, end));
    DepthFirst(n, RangeIs(start, end))
  }

  function KindIs(kind: string): Node -> bool
  {
    (x: Node) => x.kind == kind
  }

  /** `findAllNodesOfType`: every node of the given kind, in pre-order, each occurrence once. */
  function FindAllNodesOfType(n: Node, kind: string): (r: seq<Node>)
    ensures r == Filter(Preorder(n), KindIs(kind))
    ensures forall x :: x in r <==> x in Preorder(n) && x.kind == kind
  {
    CollectIsFilteredPreorder(n, KindIs(kind));
    FilterMembers(Preorder(n), KindIs(kind));
    Collect(n, KindIs(kind))
  }

  function NestedWithin(outer: Range): Node -> bool
  {
    (x: Node) => NestedIn(x.range, outer)
  }

  /** `findAllNodesWithinRange`: every node whose range nests inside `outer`, in pre-order. */
  function FindAllNodesWithinRange(n: Node, outer: Range): (r: seq<Node>)
    ensures r == Filter(Preorder(n), NestedWithin(outer))
    ensures forall x :: x in r <==> x in Preorder(n) && NestedIn(x.range, outer)
  {
    CollectIsFilteredPreorder(n, NestedWithin(outer));
    FilterMembers(Preorder(n), NestedWithin(outer));
    Collect(n, NestedWithin(outer))
  }

  /** In a well-nested tree whose root nests inside `outer`, every node is collected. */
  lemma WithinRangeCollectsWholeTree(n: Node, outer: Range)
    requires WellNested(n) && NestedIn(n.range, outer)
    ensures FindAllNodesWithinRange(n, outer) == Preorder(n)
  {
    CollectIsFilteredPreorder(n, NestedWithin(outer));
    AllNestedInRoot(n, outer);
    FilterKeepsAll(Preorder(n), NestedWithin(outer));
  }

  /** The node `findNodeAtPosition` stops at: it holds the position and none of its children does. */
  function InnermostAt(p: Position): Node -> bool
  {
    (x: Node) => Within(p, x.range) && forall c :: c in x.children ==> !Within(p, c.range)
  }

  /** In a well-nested tree, the descent into the first child holding the
      position finds the first node in pre-order that holds the position
      while none of its children does. */
  lemma {:induction false} NodeAtPositionIsFirstInnermost(n: Node, p: Position)
    requires WellNested(n)
    ensures FindNodeAtPosition(n, p) == FirstWhere(Preorder(n), InnermostAt(p))
    decreases n
  {
    FirstWhereIsLeast(Preorder(n), InnermostAt(p));
    if !Within(p, n.range) {
      AllNestedInRoot(n, n.range);
      forall x | x in Preorder(n) ensures !InnermostAt(p)(x) {
        if Within(p, x.range) {
          WithinNested(p, x.range, n.range);
        }
      }
    } else {
      NodeAtPositionIsFirstInnermostAll(n.children, p);
      assert Preorder(n)[1..] == PreorderAll(n.children);
    }
  }

  lemma {:induction false} NodeAtPositionIsFirstInnermostAll(ns: seq<Node>, p: Position)
    requires forall i :: 0 <= i < |ns| ==> WellNested(ns[i])
    ensures FindNodeAtPositionAll(ns, p) == FirstWhere(PreorderAll(ns), InnermostAt(p))
    decreases ns
  {
    if ns != [] {
      NodeAtPositionIsFirstInnermost(ns[0], p);
      NodeAtPositionIsFirstInnermostAll(ns[1..], p);
      FirstWhereConcat(Preorder(ns[0]), PreorderAll(ns[1..]), InnermostAt(p));
    }
  }

  /** At a position two siblings share, the descent takes the earlier one,
      although the later one also holds the position and has no children. */
  lemma SharedEndGoesToFirstChild()
    ensures var a := Node("A", "", None, Range(Position(0, 0), Position(0, 5)), []);
      var b := Node("B", "", None, Range(Position(0, 5), Position(0, 10)), []);
      var root := Node("R", "", None, Range(Position(0, 0), Position(0, 10)), [a, b]);
      && FindNodeAtPosition(root, Position(0, 5)) == Some(a)
      && InnermostAt(Position(0, 5))(b)
  {
    var a := Node("A", "", None, Range(Position(0, 0), Position(0, 5)), []);
    var b := Node("B", "", None, Range(Position(0, 5), Position(0, 10)), []);
    assert FindNodeAtPosition(a, Position(0, 5)) == Some(a);
    assert FindNodeAtPositionAll([a, b], Position(0, 5)) == Some(a);
  }

  lemma {:induction false} AllNestedInRoot(n: Node, outer: Range)
    requires WellNested(n) && NestedIn(n.range, outer)
    ensures forall x :: x in Preorder(n) ==> NestedIn(x.range, outer)
    decreases n
  {
    forall x | x in Preorder(n) ensures NestedIn(x.range, outer) {
      if x != n {
        assert x in PreorderAll(n.children);
        var i := ChildHolding(n.children, x);
        var c := n.children[i];
        NestedInPreorder(c.range, n.range, outer);
        AllNestedInRoot(c, outer);
      }
    }
  }

  /** Names `findFirstChildNode` prefers: the `child` or `children` slot of a widget. */
  predicate IsChildSlot(x: Node) {
    x.name == "child" || x.name == "children"
  }

  /** `findFirstChildNode`: nothing for a leaf; otherwise the first child named
      `child` or `children`, else the first child. */
  function FindFirstChildNode(n: Node): (r: Option<Node>)
    ensures r.None? <==> |n.children| == 0
    ensures r.Some? ==> exists i :: (0 <= i < |n.children| && n.children[i] == r.value
                                     && (IsChildSlot(r.value) || i == 0)
                                     && forall j :: 0 <= j < i ==> !IsChildSlot(n.children[j]))
    ensures r.Some? && !IsChildSlot(r.value) ==> forall j :: 0 <= j < |n.children| ==> !IsChildSlot(n.children[j])
  {
    if |n.children| == 0 then None
    else
      FirstWhereIsLeast(n.children, IsChildSlot);
      match FirstWhere(n.children, IsChildSlot)
      case Some(c) => Some(c)
      case None => Some(n.children[0])
  }

  /** `findLastIndex`: the highest index whose element passes, or -1. */
  method FindLastIndex<T>(a: seq<T>, P: T -> bool) returns (r: int)
    ensures -1 <= r < |a|
    ensures r >= 0 ==> P(a[r]) && forall j :: r < j < |a| ==> !P(a[j])
    ensures r == -1 <==> forall j :: 0 <= j < |a| ==> !P(a[j])
  {
    var i := |a| - 1;
    while i >= 0
      invariant -1 <= i < |a|
      invariant forall j :: i < j < |a| ==> !P(a[j])
      decreases i
    {
      if P(a[i]) {
        return i;
      }
      i := i - 1;
    }
    return -1;
  }

  datatype NavigationContext = ArrayContext | WidgetContext

  /** `determineNavigationContext`: inside an array exactly when the first
      `children:` argument of the node contains the position. */
  function DetermineNavigationContext(n: Node, p: Position): (r: NavigationContext)
    ensures r == ArrayContext <==> exists i :: (0 <= i < |n.children| && IsChildrenArgument(n.children[i])
                                                && (forall j :: 0 <= j < i ==> !IsChildrenArgument(n.children[j]))
                                                && Within(p, n.children[i].range))
  {
    FirstWhereIsLeast(n.children, IsChildrenArgument);
    match FirstWhere(n.children, IsChildrenArgument)
    case Some(c) => if Within(p, c.range) then ArrayContext else WidgetContext
    case None => WidgetContext
  }
}

=== FILE: navigate.dfy ===
/**
  `navigateParams`: move the selection to the next or previous parameter of
  the innermost constructor invocation around the cursor, or else to the
  next or previous element of the array the cursor is directly inside.
  If neither applies nothing happens.
 */
module Navigate {
  import opened Wrappers
  import opened Geometry
  import opened Outline
  import opened Locator
  import opened Cycle
  import Params

  /** The editor's text buffer as the navigation code reads it: the line
      count, the length of the last line, and the offset/position conversions. */
  datatype TextDocument = TextDocument(
    lineCount: nat,
    lastLineLength: nat,
    offsetAt: Position -> nat,
    positionAt: nat -> Position,
    getText: Range -> string)

  /** The whole-document range: from (0, 0) to the end of the last line. */
  function DocumentRange(doc: TextDocument): Range {
    Range(Position(0, 0), Position(doc.lineCount - 1, doc.lastLineLength))
  }

  predicate IsConstructorAt(x: Node, cursor: Position) {
    x.kind == CONSTRUCTOR_INVOCATION && Within(cursor, x.range)
  }

  /** The head of the constructors sorted stably by `Size`: the earliest
      constructor containing the cursor among those of least size. */
  function InnermostConstructor(nodes: seq<Node>, cursor: Position): (r: Option<nat>)
    ensures r.None? <==> forall j :: 0 <= j < |nodes| ==> !IsConstructorAt(nodes[j], cursor)
    ensures r.Some? ==> r.value < |nodes| && IsConstructorAt(nodes[r.value], cursor)
    ensures r.Some? ==> forall j :: 0 <= j < |nodes| && IsConstructorAt(nodes[j], cursor) ==>
      Size(nodes[r.value].range) <= Size(nodes[j].range)
    ensures r.Some? ==> forall j :: 0 <= j < r.value && IsConstructorAt(nodes[j], cursor) ==>
      Size(nodes[r.value].range) < Size(nodes[j].range)
    decreases |nodes|
  {
    if nodes == [] then None
    else
      var last := |nodes| - 1;
      var best := InnermostConstructor(nodes[..last], cursor);
      assert forall j :: 0 <= j < last ==> nodes[..last][j] == nodes[j];
      if !IsConstructorAt(nodes[last], cursor) then best
      else match best
        case None => Some(last)
        case Some(k) => if Size(nodes[last].range) < Size(nodes[k].range) then Some(last) else Some(k)
  }

  /** The node whose parameters are navigated: the innermost constructor
      around the cursor when there is one, else the node at the cursor. */
  function ParameterTarget(nodes: seq<Node>, current: Node, cursor: Position): (t: Node)
    ensures InnermostConstructor(nodes, cursor).None? ==> t == current
    ensures InnermostConstructor(nodes, cursor).Some? ==> t == nodes[InnermostConstructor(nodes, cursor).value]
  {
    match InnermostConstructor(nodes, cursor)
    case Some(k) => nodes[k]
    case None => current
  }

  /** Child kinds that make a node look like an array of widgets. */
  predicate IsElementKind(x: Node) {
    x.kind == CONSTRUCTOR_INVOCATION || x.kind == METHOD_INVOCATION || x.kind == IDENTIFIER
  }

  /** The `isArrayLike` test for `nodes[k]`: it has children, all of element
      kind, it contains the cursor, and no other node with children that
      contains the cursor starts inside it. "Other" is a different index. */
  predicate IsArrayLike(nodes: seq<Node>, k: nat, cursor: Position)
    requires k < |nodes|
  {
    var node := nodes[k];
    && |node.children| > 0
    && (forall i :: 0 <= i < |node.children| ==> IsElementKind(node.children[i]))
    && Within(cursor, node.range)
    && !(exists j :: 0 <= j < |nodes| && j != k && Within(cursor, nodes[j].range)
           && Within(nodes[j].range.start, node.range) && |nodes[j].children| > 0)
  }

  /** `allNodes.some(...)`: the first index, from `from` on, that is array-like. */
  function ArrayAnchor(nodes: seq<Node>, cursor: Position, from: nat): (r: Option<nat>)
    requires from <= |nodes|
    ensures r.None? <==> forall j :: from <= j < |nodes| ==> !IsArrayLike(nodes, j, cursor)
    ensures r.Some? ==> from <= r.value < |nodes| && IsArrayLike(nodes, r.value, cursor)
    ensures r.Some? ==> forall j :: from <= j < r.value ==> !IsArrayLike(nodes, j, cursor)
    decreases |nodes| - from
  {
    if from == |nodes| then None
    else if IsArrayLike(nodes, from, cursor) then Some(from)
    else ArrayAnchor(nodes, cursor, from + 1)
  }

  /** The constructor branch is taken at the innermost constructor when it has parameter text. */
  lemma ParameterBranchTaken(root: Node, doc: TextDocument, cursor: Position, all: seq<Node>, k: nat)
    requires FindNodeAtPosition(root, cursor).Some?
    requires all == FindAllNodesWithinRange(root, DocumentRange(doc))
    requires k < |all| && HasParameterBranch(all[k])
    requires InnermostConstructor(all, cursor) == Some(k)
    ensures ChooseNavigation(root, doc, cursor) == ParameterNavigation(all[k], ParameterRanges(all[k], doc))
  {
  }

  /** Without a constructor around the caret, the array branch is taken at the array-like node. */
  lemma ArrayBranchTaken(root: Node, doc: TextDocument, cursor: Position, all: seq<Node>, k: nat)
    requires FindNodeAtPosition(root, cursor).Some?
    requires all == FindAllNodesWithinRange(root, DocumentRange(doc))
    requires InnermostConstructor(all, cursor).None? && !HasParameterBranch(FindNodeAtPosition(root, cursor).value)
    requires k < |all| && IsArrayLike(all, k, cursor)
    ensures ChooseNavigation(root, doc, cursor) == ArrayNavigation(all[k], ChildRanges(all[k]))
  {
  }

  /** The scan of `some` finds the one array-like node, wherever it sits in the list. */
  lemma ArrayAnchorIsTheArrayLikeNode(nodes: seq<Node>, cursor: Position, k: nat)
    requires k < |nodes| && IsArrayLike(nodes, k, cursor)
    ensures ArrayAnchor(nodes, cursor, 0) == Some(k)
  {
    var a := ArrayAnchor(nodes, cursor, 0);
    ArrayLikeIsUnique(nodes, a.value, k, cursor);
  }

  lemma AnchorIsEveryArrayLike(nodes: seq<Node>, cursor: Position)
    ensures forall k :: 0 <= k < |nodes| && IsArrayLike(nodes, k, cursor) ==> ArrayAnchor(nodes, cursor, 0) == Some(k)
  {
    forall k | 0 <= k < |nodes| && IsArrayLike(nodes, k, cursor) ensures ArrayAnchor(nodes, cursor, 0) == Some(k) {
      ArrayAnchorIsTheArrayLikeNode(nodes, cursor, k);
    }
  }

  /** Two ranges through one point: one of them starts inside the other. */
  lemma OverlapHasStartInside(A: Range, B: Range, p: Position)
    requires Within(p, A) && Within(p, B)
    ensures Within(B.start, A) || Within(A.start, B)
  {
    WithinIsInclusiveInterval(p, A);
    WithinIsInclusiveInterval(p, B);
    WithinIsInclusiveInterval(B.start, A);
    WithinIsInclusiveInterval(A.start, B);
    LeIsTotalOrder(A.start, B.start, p);
    LeIsTotalOrder(B.start, p, A.end);
    LeIsTotalOrder(A.start, p, B.end);
  }

  /** At most one node is array-like for a cursor, so the scan order of `some` does not matter. */
  lemma ArrayLikeIsUnique(nodes: seq<Node>, a: nat, b: nat, cursor: Position)
    requires a < |nodes| && b < |nodes|
    requires IsArrayLike(nodes, a, cursor) && IsArrayLike(nodes, b, cursor)
    ensures a == b
  {
    if a != b {
      OverlapHasStartInside(nodes[a].range, nodes[b].range, cursor);
      assert false;
    }
  }

  /** `parameters` is present and, being a JavaScript string tested for truth, not empty. */
  predicate HasParameterText(x: Node) {
    x.parameters.Some? && |x.parameters.value| > 0
  }

  /** The parameter spans of a constructor, converted to positions. */
  function ParameterRanges(target: Node, doc: TextDocument): (r: seq<Range>)
    requires HasParameterText(target)
    ensures var spans := Params.ExtractParameters(target.parameters.value, doc.offsetAt(target.range.start));
      |r| == |spans| && forall i :: 0 <= i < |r| ==>
        r[i] == Range(doc.positionAt(spans[i].start), doc.positionAt(spans[i].end))
  {
    var spans := Params.ExtractParameters(target.parameters.value, doc.offsetAt(target.range.start));
    seq(|spans|, i requires 0 <= i < |spans| => Range(doc.positionAt(spans[i].start), doc.positionAt(spans[i].end)))
  }

  /** The ranges of a node's children, in order. */
  function ChildRanges(n: Node): (r: seq<Range>)
    ensures |r| == |n.children| && forall i :: 0 <= i < |r| ==> r[i] == n.children[i].range
  {
    seq(|n.children|, i requires 0 <= i < |n.children| => n.children[i].range)
  }

  /** Which sequence the navigation cycles through, if any. */
  datatype Navigation =
    | ParameterNavigation(target: Node, elements: seq<Range>)
    | ArrayNavigation(anchor: Node, elements: seq<Range>)
    | NoNavigation

  /** The branch test of `navigateParams`: a constructor invocation with parameter text. */
  predicate HasParameterBranch(t: Node) {
    t.kind == CONSTRUCTOR_INVOCATION && HasParameterText(t)
  }

  /** The decision part of `navigateParams`, before the cyclic step. With `all`
      the nodes inside the document and `t` the parameter target: the
      constructor branch when `t` passes the branch test; otherwise the array
      branch, anchored at the one array-like node, when there is one;
      otherwise nothing. */
  function ChooseNavigation(root: Node, doc: TextDocument, cursor: Position): (r: Navigation)
    ensures FindNodeAtPosition(root, cursor).None? ==> r == NoNavigation
    ensures FindNodeAtPosition(root, cursor).Some? ==>
      var all := FindAllNodesWithinRange(root, DocumentRange(doc));
      var t := ParameterTarget(all, FindNodeAtPosition(root, cursor).value, cursor);
      && (r.ParameterNavigation? <==> HasParameterBranch(t))
      && (r.ParameterNavigation? ==> r.target == t)
      && (r.ArrayNavigation? <==> !HasParameterBranch(t) && exists k :: 0 <= k < |all| && IsArrayLike(all, k, cursor))
      && (r.ArrayNavigation? ==> forall k :: 0 <= k < |all| && IsArrayLike(all, k, cursor) ==> r.anchor == all[k])
    ensures r.ParameterNavigation? ==>
      && r.target.kind == CONSTRUCTOR_INVOCATION && HasParameterText(r.target)
      && r.elements == ParameterRanges(r.target, doc)
    ensures r.ArrayNavigation? ==>
      && r.elements == ChildRanges(r.anchor) && |r.elements| > 0
      && r.anchor in Preorder(root) && Within(cursor, r.anchor.range)
  {
    match FindNodeAtPosition(root, cursor)
    case None => NoNavigation
    case Some(current) =>
      var all := FindAllNodesWithinRange(root, DocumentRange(doc));
      var target := ParameterTarget(all, current, cursor);
      var anchor := ArrayAnchor(all, cursor, 0);
      AnchorIsEveryArrayLike(all, cursor);
      if HasParameterBranch(target) then
        ParameterNavigation(target, ParameterRanges(target, doc))
      else if anchor.Some? then
        ArrayNavigation(all[anchor.value], ChildRanges(all[anchor.value]))
      else NoNavigation
  }

  /** The step of either branch: select, start to end, the element after
      (or before) the one holding the cursor; nothing without elements. */
  function StepWithin(nav: Navigation, cursor: Position, forward: bool): (r: Option<Selection>)
    ensures r.None? <==> nav.NoNavigation? || |nav.elements| == 0
    ensures r.Some? ==> !nav.NoNavigation? && exists i :: (0 <= i < |nav.elements|
      && r.value == Selection(nav.elements[i].start, nav.elements[i].end))
    ensures r.Some? ==> !nav.NoNavigation? && var i := FindIndex(nav.elements, cursor);
      var e := nav.elements[NextIndex(i, |nav.elements|, forward)];
      r.value == Selection(e.start, e.end)
  {
    if nav.NoNavigation? then None
    else match CycleSelect(nav.elements, cursor, forward)
      case None => None
      case Some(e) => Some(Selection(e.start, e.end))
  }

  /** `navigateParams`: the new selection, start to end of the chosen element, or nothing. */
  function NavigateParams(root: Node, doc: TextDocument, cursor: Position, forward: bool): (r: Option<Selection>)
    ensures FindNodeAtPosition(root, cursor).None? ==> r.None?
    ensures r.Some? ==> var nav := ChooseNavigation(root, doc, cursor);
      !nav.NoNavigation? && exists i :: 0 <= i < |nav.elements| && r.value == Selection(nav.elements[i].start, nav.elements[i].end)
    ensures r.Some? ==> var nav := ChooseNavigation(root, doc, cursor);
      !nav.NoNavigation? && var e := nav.elements[NextIndex(FindIndex(nav.elements, cursor), |nav.elements|, forward)];
      r.value == Selection(e.start, e.end)
    ensures r.None? <==> var nav := ChooseNavigation(root, doc, cursor);
      nav.NoNavigation? || |nav.elements| == 0
  {
    StepWithin(ChooseNavigation(root, doc, cursor), cursor, forward)
  }

  /** The constructor picked for parameter navigation: when some constructor
      inside the document contains the cursor, the innermost by `Size`, ties
      going to the earliest in pre-order; otherwise the node at the cursor. */
  lemma ConstructorChoice(root: Node, doc: TextDocument, cursor: Position)
    requires ChooseNavigation(root, doc, cursor).ParameterNavigation?
    ensures var all := FindAllNodesWithinRange(root, DocumentRange(doc));
      var t := ChooseNavigation(root, doc, cursor).target;
      var k := InnermostConstructor(all, cursor);
      (k.Some? ==> (t == all[k.value] && IsConstructorAt(t, cursor)
                    && (forall j :: 0 <= j < |all| && IsConstructorAt(all[j], cursor) ==> Size(t.range) <= Size(all[j].range))
                    && (forall j :: 0 <= j < k.value && IsConstructorAt(all[j], cursor) ==> Size(t.range) < Size(all[j].range))))
      && (k.None? ==> t == FindNodeAtPosition(root, cursor).value)
  {
    var all := FindAllNodesWithinRange(root, DocumentRange(doc));
    assert ChooseNavigation(root, doc, cursor).target == ParameterTarget(all, FindNodeAtPosition(root, cursor).value, cursor);
  }

  /** The constructor branch wins even when it has no parameter to offer:
      a target with parameter text from which the regular expression extracts
      nothing blocks the array branch, even with an array-like node at the
      cursor, and nothing happens. */
  lemma EmptyParametersBlockArrays(root: Node, doc: TextDocument, cursor: Position, forward: bool)
    requires FindNodeAtPosition(root, cursor).Some?
    requires var all := FindAllNodesWithinRange(root, DocumentRange(doc));
      var t := ParameterTarget(all, FindNodeAtPosition(root, cursor).value, cursor);
      && HasParameterBranch(t)
      && Params.ExtractParameters(t.parameters.value, doc.offsetAt(t.range.start)) == []
      && exists k :: 0 <= k < |all| && IsArrayLike(all, k, cursor)
    ensures ChooseNavigation(root, doc, cursor).ParameterNavigation?
    ensures NavigateParams(root, doc, cursor, forward).None?
  {
  }


  /** With the caret at the end of one of separated elements, a step selects
      the next (or previous) element, wrapping around at either end. */
  lemma StepFromElementEnd(nav: Navigation, forward: bool, k: nat)
    requires !nav.NoNavigation? && Separated(nav.elements) && k < |nav.elements|
    ensures var j := Succ(k, |nav.elements|, forward);
      StepWithin(nav, nav.elements[k].end, forward) == Some(Selection(nav.elements[j].start, nav.elements[j].end))
  {
    FindIndexAtEnd(nav.elements, k);
    NextIndexIsSucc(k, |nav.elements|, forward);
  }

  /** A one-line document of the given width, offsets counted in characters. */
  function OneLineDocument(width: nat): TextDocument {
    TextDocument(1, width,
      (p: Position) => if p.character < 0 then 0 else p.character,
      (o: nat) => Position(0, o),
      (r: Range) => "")
  }

  /** The example `[C1(a: 1), C2(a: 1)]` on one line of width 50: two
      constructor invocations with parameter text inside a list literal. */
  const C1 := Node(CONSTRUCTOR_INVOCATION, "C1", Some("a: 1"), Range(Position(0, 10), Position(0, 20)), [])
  const C2 := Node(CONSTRUCTOR_INVOCATION, "C2", Some("a: 1"), Range(Position(0, 30), Position(0, 40)), [])
  const ListOfTwo := Node(LIST_LITERAL, "", None, Range(Position(0, 5), Position(0, 45)), [C1, C2])
  const ExampleRoot := Node("COMPILATION_UNIT", "", None, Range(Position(0, 0), Position(0, 50)), [ListOfTwo])

  lemma ExampleWellNested()
    ensures WellNested(ExampleRoot)
  {
    assert WellNested(C1) && WellNested(C2);
    assert WellNested(ListOfTwo);
  }

  lemma ExamplePreorder()
    ensures Preorder(ExampleRoot) == [ExampleRoot, ListOfTwo, C1, C2]
  {
    assert Preorder(C1) == [C1] && Preorder(C2) == [C2];
    assert [C1, C2][1..] == [C2] && [C2][1..] == [] && [ListOfTwo][1..] == [];
    assert PreorderAll([C2]) == [C2];
    assert PreorderAll([C1, C2]) == [C1, C2];
    assert Preorder(ListOfTwo) == [ListOfTwo, C1, C2];
    assert PreorderAll([ListOfTwo]) == [ListOfTwo, C1, C2];
  }

  /** The example's nodes inside the document are the whole tree, in pre-order. */
  lemma ExampleNodes()
    ensures FindAllNodesWithinRange(ExampleRoot, DocumentRange(OneLineDocument(50))) == [ExampleRoot, ListOfTwo, C1, C2]
  {
    ExampleWellNested();
    ExamplePreorder();
    WithinRangeCollectsWholeTree(ExampleRoot, DocumentRange(OneLineDocument(50)));
  }

  /** The node at a caret inside the list but outside both elements is the list. */
  lemma ExampleNodeInList(cursor: Position)
    requires cursor == Position(0, 6)
    ensures FindNodeAtPosition(ExampleRoot, cursor) == Some(ListOfTwo)
  {
    assert [C1, C2][1..] == [C2] && [C2][1..] == [] && [ListOfTwo][1..] == [];
    assert FindNodeAtPosition(C1, cursor).None? && FindNodeAtPosition(C2, cursor).None?;
    assert FindNodeAtPositionAll([C2], cursor).None?;
    assert FindNodeAtPositionAll([C1, C2], cursor).None?;
    assert FindNodeAtPosition(ListOfTwo, cursor) == Some(ListOfTwo);
    assert FindNodeAtPositionAll([ListOfTwo], cursor) == Some(ListOfTwo);
  }

  /** The node at C1's end is C1. */
  lemma ExampleNodeAtC1End(cursor: Position)
    requires cursor == C1.range.end
    ensures FindNodeAtPosition(ExampleRoot, cursor) == Some(C1)
  {
    assert [C1, C2][1..] == [C2] && [ListOfTwo][1..] == [];
    assert FindNodeAtPositionAll([], cursor).None?;
    assert FindNodeAtPosition(C1, cursor) == Some(C1);
    assert FindNodeAtPositionAll([C1, C2], cursor) == Some(C1);
    assert FindNodeAtPosition(ListOfTwo, cursor) == Some(C1);
    assert FindNodeAtPositionAll([ListOfTwo], cursor) == Some(C1);
  }

  /** Inside the list but outside both elements, the list is array-like:
      its children are constructor invocations, and the only other node
      holding the caret, the root, starts before it. */
  lemma ExampleListIsArrayLike(cursor: Position)
    requires cursor == Position(0, 6)
    ensures IsArrayLike([ExampleRoot, ListOfTwo, C1, C2], 1, cursor)
  {
    var all := [ExampleRoot, ListOfTwo, C1, C2];
    assert !Within(ExampleRoot.range.start, ListOfTwo.range);
    assert !Within(cursor, C1.range) && !Within(cursor, C2.range);
    assert forall j :: 0 <= j < |all| && j != 1 ==> !Within(cursor, all[j].range) || !Within(all[j].range.start, ListOfTwo.range);
  }

  /** From inside the list, before C1, no constructor holds the caret and the
      list is the array-like node: the step selects C1. */
  lemma ExampleStepIntoList()
    ensures NavigateParams(ExampleRoot, OneLineDocument(50), Position(0, 6), true) == Some(Selection(C1.range.start, C1.range.end))
  {
    var cursor := Position(0, 6);
    var all := [ExampleRoot, ListOfTwo, C1, C2];
    ExampleNodes();
    ExampleNodeInList(cursor);
    assert forall j :: 0 <= j < |all| ==> !IsConstructorAt(all[j], cursor);
    ExampleListIsArrayLike(cursor);
    ArrayBranchTaken(ExampleRoot, OneLineDocument(50), cursor, all, 1);
    ExampleFirstSelection(ChooseNavigation(ExampleRoot, OneLineDocument(50), cursor), cursor);
  }

  /** The array branch over the list, from a caret before C1, selects C1. */
  lemma ExampleFirstSelection(nav: Navigation, cursor: Position)
    requires nav == ArrayNavigation(ListOfTwo, ChildRanges(ListOfTwo)) && cursor == Position(0, 6)
    ensures StepWithin(nav, cursor, true) == Some(Selection(C1.range.start, C1.range.end))
  {
    assert nav.elements == [C1.range, C2.range];
    assert FindIndex(nav.elements, cursor) == -1;
  }

  /** From C1's end the caret is inside C1, the innermost constructor, whose
      one parameter `a: 1` spans offsets 10 to 14: the step selects it. */
  lemma ExampleStepIntoParameters()
    ensures NavigateParams(ExampleRoot, OneLineDocument(50), C1.range.end, true)
         == Some(Selection(Position(0, 10), Position(0, 14)))
  {
    var cursor := C1.range.end;
    var all := [ExampleRoot, ListOfTwo, C1, C2];
    ExampleNodes();
    ExampleNodeAtC1End(cursor);
    assert IsConstructorAt(all[2], cursor);
    assert forall j :: 0 <= j < |all| && j != 2 ==> !IsConstructorAt(all[j], cursor);
    assert InnermostConstructor(all, cursor) == Some(2);
    ParameterBranchTaken(ExampleRoot, OneLineDocument(50), cursor, all, 2);
    ExampleSecondSelection(ChooseNavigation(ExampleRoot, OneLineDocument(50), cursor), cursor);
  }

  /** C1's parameter branch, from C1's end, selects the parameter `a: 1`. */
  lemma ExampleSecondSelection(nav: Navigation, cursor: Position)
    requires nav == ParameterNavigation(C1, ParameterRanges(C1, OneLineDocument(50))) && cursor == C1.range.end
    ensures StepWithin(nav, cursor, true) == Some(Selection(Position(0, 10), Position(0, 14)))
  {
    Params.SingleParameter(10);
    assert nav.elements == [Range(Position(0, 10), Position(0, 14))];
    assert FindIndex(nav.elements, cursor) == -1;
  }

  /** Array navigation does not cycle through constructors that carry
      parameter text: a step from inside the list selects C1, and the next
      step, from C1's end, selects C1's parameter instead of C2. */
  lemma ArrayOfConstructorsDoesNotCycle()
    ensures var first := NavigateParams(ExampleRoot, OneLineDocument(50), Position(0, 6), true);
      && first == Some(Selection(C1.range.start, C1.range.end))
      && NavigateParams(ExampleRoot, OneLineDocument(50), first.value.active, true) != Some(Selection(C2.range.start, C2.range.end))
  {
    ExampleStepIntoList();
    ExampleStepIntoParameters();
  }
}

=== FILE: outline.dfy ===
/**
  The outline tree supplied by the Dart analysis service, and the two
  traversal schemes every query of the navigator is built from: a
  depth-first search that returns the first node satisfying a test, and a
  depth-first collection of every node satisfying a test. Both are tied
  to an independent reference, the pre-order listing of the tree.
 */
module Outline {
  import opened Wrappers
  import opened Geometry

  /** Element kind tags the navigation code compares against. */
  const CONSTRUCTOR_INVOCATION := "CONSTRUCTOR_INVOCATION"
  const METHOD_INVOCATION := "METHOD_INVOCATION"
  const IDENTIFIER := "IDENTIFIER"
  const NAMED_ARGUMENT := "NAMED_ARGUMENT"
  const LIST_LITERAL := "LIST_LITERAL"

  /** An outline node: the element's kind, name and optional parameter text,
      the node's range, and its ordered children (a missing list is empty). */
  datatype Node = Node(kind: string, name: string, parameters: Option<string>, range: Range, children: seq<Node>)

  /** The `children:` named argument of a widget. */
  predicate IsChildrenArgument(x: Node) {
    x.kind == NAMED_ARGUMENT && x.name == "children"
  }

  /** Every node of the tree, parent before children, children in order. */
  function Preorder(n: Node): (r: seq<Node>)
    decreases n
  {
    [n] + PreorderAll(n.children)
  }

  function PreorderAll(ns: seq<Node>): (r: seq<Node>)
    decreases ns
  {
    if ns == [] then [] else Preorder(ns[0]) + PreorderAll(ns[1..])
  }

  /** The elements of `s` that satisfy `P`, in order. */
  function Filter(s: seq<Node>, P: Node -> bool): (r: seq<Node>)
  {
    if s == [] then [] else (if P(s[0]) then [s[0]] else []) + Filter(s[1..], P)
  }

  /** The first element of `s` that satisfies `P`. */
  function FirstWhere(s: seq<Node>, P: Node -> bool): (r: Option<Node>)
  {
    if s == [] then None else if P(s[0]) then Some(s[0]) else FirstWhere(s[1..], P)
  }

  /** Depth-first search as the source writes it: test the node, then search
      each child in turn and return the first hit. */
  function DepthFirst(n: Node, P: Node -> bool): (r: Option<Node>)
    decreases n
  {
    if P(n) then Some(n) else DepthFirstAll(n.children, P)
  }

  function DepthFirstAll(ns: seq<Node>, P: Node -> bool): (r: Option<Node>)
    decreases ns
  {
    if ns == [] then None
    else match DepthFirst(ns[0], P)
      case Some(f) => Some(f)
      case None => DepthFirstAll(ns[1..], P)
  }

  /** Depth-first collection as the source writes it: the node if it passes,
      then the concatenated collections of its children. */
  function Collect(n: Node, P: Node -> bool): (r: seq<Node>)
    decreases n
  {
    (if P(n) then [n] else []) + CollectAll(n.children, P)
  }

  function CollectAll(ns: seq<Node>, P: Node -> bool): (r: seq<Node>)
    decreases ns
  {
    if ns == [] then [] else Collect(ns[0], P) + CollectAll(ns[1..], P)
  }

  /** A child of the node's own child list. */
  lemma ChildInPreorder(n: Node, i: nat)
    requires i < |n.children|
    ensures n.children[i] in Preorder(n)
    ensures forall x :: x in Preorder(n.children[i]) ==> x in Preorder(n)
  {
    PreorderAllContains(n.children, i);
  }

  lemma {:induction false} PreorderAllContains(ns: seq<Node>, i: nat)
    requires i < |ns|
    ensures forall x :: x in Preorder(ns[i]) ==> x in PreorderAll(ns)
    decreases ns
  {
    if i > 0 {
      PreorderAllContains(ns[1..], i - 1);
      assert ns[1..][i - 1] == ns[i];
    }
  }

  lemma {:induction false} FilterConcat(a: seq<Node>, b: seq<Node>, P: Node -> bool)
    ensures Filter(a + b, P) == Filter(a, P) + Filter(b, P)
  {
    if a != [] {
      assert (a + b)[0] == a[0] && (a + b)[1..] == a[1..] + b;
      FilterConcat(a[1..], b, P);
    } else {
      assert a + b == b;
    }
  }

  lemma {:induction false} FirstWhereConcat(a: seq<Node>, b: seq<Node>, P: Node -> bool)
    ensures FirstWhere(a + b, P) == if FirstWhere(a, P).Some? then FirstWhere(a, P) else FirstWhere(b, P)
  {
    if a != [] {
      assert (a + b)[0] == a[0] && (a + b)[1..] == a[1..] + b;
      FirstWhereConcat(a[1..], b, P);
    } else {
      assert a + b == b;
    }
  }

  /** The filter keeps exactly the elements that pass. */
  lemma FilterMembers(s: seq<Node>, P: Node -> bool)
    ensures forall x :: x in Filter(s, P) <==> x in s && P(x)
  {
  }

  /** `FirstWhere` finds the element at the least index that passes, and fails only when none passes. */
  lemma {:induction false} FirstWhereIsLeast(s: seq<Node>, P: Node -> bool)
    ensures FirstWhere(s, P).None? <==> forall i :: 0 <= i < |s| ==> !P(s[i])
    ensures FirstWhere(s, P).Some? ==>
      exists i :: 0 <= i < |s| && s[i] == FirstWhere(s, P).value && P(s[i]) && forall j :: 0 <= j < i ==> !P(s[j])
  {
    if s != [] && !P(s[0]) {
      FirstWhereIsLeast(s[1..], P);
      if FirstWhere(s, P).Some? {
        var i :| 0 <= i < |s[1..]| && s[1..][i] == FirstWhere(s, P).value && P(s[1..][i])
          && forall j :: 0 <= j < i ==> !P(s[1..][j]);
        assert s[i + 1] == s[1..][i];
        forall j | 0 <= j < i + 1 ensures !P(s[j]) {
          if j > 0 { assert s[j] == s[1..][j - 1]; }
        }
      } else {
        forall i | 0 <= i < |s| ensures !P(s[i]) {
          if i > 0 { assert s[i] == s[1..][i - 1]; }
        }
      }
    }
  }

  /** The source's depth-first search returns the first node in pre-order that passes the test. */
  lemma {:induction false} DepthFirstIsFirstInPreorder(n: Node, P: Node -> bool)
    ensures DepthFirst(n, P) == FirstWhere(Preorder(n), P)
    decreases n
  {
    assert Preorder(n) == [n] + PreorderAll(n.children);
    assert ([n] + PreorderAll(n.children))[1..] == PreorderAll(n.children);
    DepthFirstAllIsFirstInPreorder(n.children, P);
  }

  lemma {:induction false} DepthFirstAllIsFirstInPreorder(ns: seq<Node>, P: Node -> bool)
    ensures DepthFirstAll(ns, P) == FirstWhere(PreorderAll(ns), P)
    decreases ns
  {
    if ns != [] {
      DepthFirstIsFirstInPreorder(ns[0], P);
      DepthFirstAllIsFirstInPreorder(ns[1..], P);
      FirstWhereConcat(Preorder(ns[0]), PreorderAll(ns[1..]), P);
    }
  }

  /** The source's depth-first collection is the pre-order listing filtered by the test. */
  lemma {:induction false} CollectIsFilteredPreorder(n: Node, P: Node -> bool)
    ensures Collect(n, P) == Filter(Preorder(n), P)
    decreases n
  {
    CollectAllIsFilteredPreorder(n.children, P);
    FilterConcat([n], PreorderAll(n.children), P);
  }

  lemma {:induction false} CollectAllIsFilteredPreorder(ns: seq<Node>, P: Node -> bool)
    ensures CollectAll(ns, P) == Filter(PreorderAll(ns), P)
    decreases ns
  {
    if ns != [] {
      CollectIsFilteredPreorder(ns[0], P);
      CollectAllIsFilteredPreorder(ns[1..], P);
      FilterConcat(Preorder(ns[0]), PreorderAll(ns[1..]), P);
    }
  }

  /** Every child and descendant range lies inside its parent's range. */
  ghost predicate WellNested(n: Node)
    decreases n
  {
    forall i :: 0 <= i < |n.children| ==> NestedIn(n.children[i].range, n.range) && WellNested(n.children[i])
  }

  /** The child whose subtree holds a given node of a forest. */
  lemma {:induction false} ChildHolding(ns: seq<Node>, x: Node) returns (i: nat)
    requires x in PreorderAll(ns)
    ensures i < |ns| && x in Preorder(ns[i])
    decreases ns
  {
    if x in Preorder(ns[0]) {
      i := 0;
    } else {
      var j := ChildHolding(ns[1..], x);
      i := j + 1;
    }
  }

  lemma {:induction false} FilterKeepsAll(s: seq<Node>, P: Node -> bool)
    requires forall x :: x in s ==> P(x)
    ensures Filter(s, P) == s
  {
    if s != [] {
      FilterKeepsAll(s[1..], P);
    }
  }

  /** Every subtree of a well-nested tree is well-nested. */
  lemma {:induction false} WellNestedSubtree(root: Node, x: Node)
    requires WellNested(root) && x in Preorder(root)
    ensures WellNested(x)
    decreases root
  {
    if x != root {
      var i := ChildHolding(root.children, x);
      WellNestedSubtree(root.children[i], x);
    }
  }

  /** A node of a subtree is a node of the enclosing tree. */
  lemma {:induction false} PreorderTransitive(root: Node, x: Node, y: Node)
    requires x in Preorder(root) && y in Preorder(x)
    ensures y in Preorder(root)
    decreases root
  {
    if x != root {
      var i := ChildHolding(root.children, x);
      PreorderTransitive(root.children[i], x, y);
      ChildInPreorder(root, i);
    }
  }

  lemma {:induction false} FilterNoLonger(s: seq<Node>, P: Node -> bool)
    ensures |Filter(s, P)| <= |s|
  {
    if s != [] {
      FilterNoLonger(s[1..], P);
    }
  }

  /** Filtering by a weaker test keeps strictly more when some element passes only the weaker one. */
  lemma {:induction false} FilterStrictlyShorter(s: seq<Node>, P: Node -> bool, Q: Node -> bool, w: Node)
    requires forall x :: x in s && P(x) ==> Q(x)
    requires w in s && Q(w) && !P(w)
    ensures |Filter(s, P)| < |Filter(s, Q)|
  {
    if s[0] == w {
      FilterNoMore(s[1..], P, Q);
    } else {
      FilterStrictlyShorter(s[1..], P, Q, w);
    }
  }

  lemma {:induction false} FilterNoMore(s: seq<Node>, P: Node -> bool, Q: Node -> bool)
    requires forall x :: x in s && P(x) ==> Q(x)
    ensures |Filter(s, P)| <= |Filter(s, Q)|
  {
    if s != [] {
      FilterNoMore(s[1..], P, Q);
    }
  }
}

=== FILE: params.dfy ===
/**
  `extractParameters`: a global scan of a constructor's parameter text with
  the regular expression `(\w+)\s*:\s*([^,]+)(,|$)`, turning each match into
  an offset span shifted by a base offset. The expression has no notion of
  brackets or quotes: a comma anywhere ends a match.

  At a given start the expression can match in only one way: `\w+` must take
  the whole word (a word character can be neither a space nor a colon), the
  first `\s*` must take every space, and `[^,]+` runs to the next comma or to
  the end of the text. `MatchAt` computes that one match directly, and
  `RegexMatches` states the expression's language declaratively; the two are
  proved equivalent.
 */
module Params {
  import opened Wrappers

  /** `\w`: ASCII letters, digits and underscore. */
  predicate IsWordChar(c: char) {
    ('a' <= c <= 'z') || ('A' <= c <= 'Z') || ('0' <= c <= '9') || c == '_'
  }

  /** `\s`: the white space and line terminator characters of ECMAScript. */
  predicate IsSpace(c: char) {
    || c == ' ' || c == '\t' || c == '\n' || c == '\r' || c == '\U{000B}' || c == '\U{000C}'
    || c == '\U{00A0}' || c == '\U{1680}' || ('\U{2000}' <= c <= '\U{200A}')
    || c == '\U{2028}' || c == '\U{2029}' || c == '\U{202F}' || c == '\U{205F}'
    || c == '\U{3000}' || c == '\U{FEFF}'
  }

  predicate AllWord(t: string, a: nat, b: nat) {
    a <= b <= |t| && forall m :: a <= m < b ==> IsWordChar(t[m])
  }

  predicate AllSpace(t: string, a: nat, b: nat) {
    a <= b <= |t| && forall m :: a <= m < b ==> IsSpace(t[m])
  }

  predicate NoComma(t: string, a: nat, b: nat) {
    a <= b <= |t| && forall m :: a <= m < b ==> t[m] != ','
  }

  /** The end of the run of word characters starting at `i`. */
  function WordEnd(t: string, i: nat): (j: nat)
    requires i <= |t|
    ensures i <= j <= |t|
    ensures j == |t| || !IsWordChar(t[j])
    decreases |t| - i
  {
    if i < |t| && IsWordChar(t[i]) then WordEnd(t, i + 1) else i
  }

  /** The end of the run of spaces starting at `i`. */
  function SpaceEnd(t: string, i: nat): (j: nat)
    requires i <= |t|
    ensures i <= j <= |t|
    ensures j == |t| || !IsSpace(t[j])
    decreases |t| - i
  {
    if i < |t| && IsSpace(t[i]) then SpaceEnd(t, i + 1) else i
  }

  /** The first comma at or after `i`, or the length of the text. */
  function CommaFrom(t: string, i: nat): (c: nat)
    requires i <= |t|
    ensures i <= c <= |t|
    ensures c == |t| || t[c] == ','
    decreases |t| - i
  {
    if i < |t| && t[i] != ',' then CommaFrom(t, i + 1) else i
  }

  /** The runs the three scanners skip consist of the characters they skip. */
  lemma {:induction false} RunsAreHomogeneous(t: string, i: nat)
    requires i <= |t|
    ensures AllWord(t, i, WordEnd(t, i))
    ensures AllSpace(t, i, SpaceEnd(t, i))
    ensures NoComma(t, i, CommaFrom(t, i))
    decreases |t| - i
  {
    if i < |t| {
      RunsAreHomogeneous(t, i + 1);
    }
  }

  /** The end of the match of the expression starting exactly at `i`, if there is one. */
  function MatchAt(t: string, i: nat): (r: Option<nat>)
    requires i <= |t|
    ensures r.Some? ==> i + 3 <= r.value <= |t|
    ensures r.Some? ==> r.value == |t| || t[r.value - 1] == ','
  {
    if i == |t| || !IsWordChar(t[i]) then None
    else
      var j := WordEnd(t, i);
      var k := SpaceEnd(t, j);
      if k == |t| || t[k] != ':' then None
      else
        var c := CommaFrom(t, k + 1);
        if c == k + 1 then None
        else Some(if c < |t| then c + 1 else c)
  }

  /** One way for `t[i..e]` to match `(\w+)\s*:\s*([^,]+)(,|$)`: a word from
      `i` to `j`, spaces up to the colon at `k`, one or more non-commas up to
      `c`, then a comma or the end of the text. (The `\s*` after the colon is
      absorbed by `[^,]+`, which matches spaces too.) */
  predicate MatchShape(t: string, i: nat, j: nat, k: nat, c: nat, e: nat) {
    && i < j <= k && k + 1 < c <= |t|
    && AllWord(t, i, j)
    && AllSpace(t, j, k)
    && t[k] == ':'
    && NoComma(t, k + 1, c)
    && ((c < |t| && t[c] == ',' && e == c + 1) || (c == |t| && e == c))
  }

  /** `t[i..e]` is a match of the expression anchored at `i`. */
  ghost predicate RegexMatches(t: string, i: nat, e: nat) {
    exists j: nat, k: nat, c: nat :: MatchShape(t, i, j, k, c, e)
  }

  lemma {:induction false} WordEndIsUnique(t: string, i: nat, j: nat)
    requires AllWord(t, i, j) && (j == |t| || !IsWordChar(t[j]))
    ensures WordEnd(t, i) == j
    decreases |t| - i
  {
    if i < j {
      WordEndIsUnique(t, i + 1, j);
    }
  }

  lemma {:induction false} SpaceEndIsUnique(t: string, i: nat, j: nat)
    requires AllSpace(t, i, j) && (j == |t| || !IsSpace(t[j]))
    ensures SpaceEnd(t, i) == j
    decreases |t| - i
  {
    if i < j {
      SpaceEndIsUnique(t, i + 1, j);
    }
  }

  lemma {:induction false} CommaFromIsUnique(t: string, i: nat, c: nat)
    requires NoComma(t, i, c) && (c == |t| || t[c] == ',')
    ensures CommaFrom(t, i) == c
    decreases |t| - i
  {
    if i < c {
      CommaFromIsUnique(t, i + 1, c);
    }
  }

  /** A computed match is a match of the expression. */
  lemma MatchAtIsSound(t: string, i: nat, e: nat)
    requires i <= |t| && MatchAt(t, i) == Some(e)
    ensures RegexMatches(t, i, e)
  {
    var j := WordEnd(t, i);
    var k := SpaceEnd(t, j);
    var c := CommaFrom(t, k + 1);
    RunsAreHomogeneous(t, i);
    RunsAreHomogeneous(t, j);
    RunsAreHomogeneous(t, k + 1);
    assert MatchShape(t, i, j, k, c, e);
  }

  /** Every match of the expression is the computed one. */
  lemma MatchAtIsComplete(t: string, i: nat, e: nat)
    requires i <= |t| && RegexMatches(t, i, e)
    ensures MatchAt(t, i) == Some(e)
  {
    var j: nat, k: nat, c: nat :| MatchShape(t, i, j, k, c, e);
    assert !IsWordChar(t[j]) by {
      if j < k { assert IsSpace(t[j]); }
    }
    WordEndIsUnique(t, i, j);
    SpaceEndIsUnique(t, j, k);
    CommaFromIsUnique(t, k + 1, c);
  }

  /** The deterministic match is exactly the expression's match at that start. */
  lemma MatchAtIsRegex(t: string, i: nat, e: nat)
    requires i <= |t|
    ensures MatchAt(t, i) == Some(e) <==> RegexMatches(t, i, e)
  {
    if MatchAt(t, i) == Some(e) {
      MatchAtIsSound(t, i, e);
    }
    if RegexMatches(t, i, e) {
      MatchAtIsComplete(t, i, e);
    }
  }

  /** One match of the scan, as offsets. */
  datatype Span = Span(start: nat, end: nat)

  /** A matcher for a text of length `n`: at each position, nothing, or the
      end of a non-empty match that stays inside the text. */
  ghost predicate ValidMatcher(M: nat -> Option<nat>, n: nat) {
    forall p: nat :: p <= n && M(p).Some? ==> p < M(p).value <= n
  }

  /** The `exec` loop of a global expression from offset `from`: take the
      leftmost match, continue at its end, stop when none is left. The
      matcher is a parameter, so the scan's properties hold for any one. */
  function Scan(M: nat -> Option<nat>, n: nat, from: nat): (r: seq<Span>)
    requires from <= n && ValidMatcher(M, n)
    ensures forall i :: 0 <= i < |r| ==> from <= r[i].start < r[i].end <= n
    ensures forall i :: 0 <= i < |r| ==> M(r[i].start) == Some(r[i].end)
    ensures forall i, j :: 0 <= i < j < |r| ==> r[i].end <= r[j].start
    decreases n - from
  {
    if from == n then []
    else match M(from)
      case Some(e) =>
        var rest := Scan(M, n, e);
        assert forall i :: 1 <= i < 1 + |rest| ==> ([Span(from, e)] + rest)[i] == rest[i - 1];
        [Span(from, e)] + rest
      case None => Scan(M, n, from + 1)
  }

  /** A position where a match starts lies inside a span of the scan: no
      match is skipped over, at most absorbed into an earlier one. The
      result is the index of that span. */
  lemma {:induction false} ScanCoversMatch(M: nat -> Option<nat>, n: nat, from: nat, p: nat) returns (i: nat)
    requires from <= p <= n && ValidMatcher(M, n) && M(p).Some?
    ensures i < |Scan(M, n, from)| && Scan(M, n, from)[i].start <= p < Scan(M, n, from)[i].end
    decreases n - from
  {
    match M(from)
    case Some(e) =>
      if p < e {
        i := 0;
      } else {
        var k := ScanCoversMatch(M, n, e, p);
        assert Scan(M, n, from)[k + 1] == Scan(M, n, e)[k];
        i := k + 1;
      }
    case None =>
      i := ScanCoversMatch(M, n, from + 1, p);
  }

  /** The matcher of the parameter expression on `t`. */
  function Matcher(t: string): (M: nat -> Option<nat>)
    ensures ValidMatcher(M, |t|)
    ensures forall p: nat :: p <= |t| && M(p).Some? ==> M(p).value == |t| || t[M(p).value - 1] == ','
  {
    (p: nat) => if p <= |t| then MatchAt(t, p) else None
  }

  lemma MatcherIsMatchAt(t: string, p: nat)
    requires p <= |t|
    ensures Matcher(t)(p) == MatchAt(t, p)
  {
  }

  /** The spans moved by `base`. */
  function Shift(s: seq<Span>, base: nat): (r: seq<Span>)
    ensures |r| == |s|
    ensures forall i :: 0 <= i < |s| ==> r[i] == Span(base + s[i].start, base + s[i].end)
  {
    seq(|s|, i requires 0 <= i < |s| => Span(base + s[i].start, base + s[i].end))
  }

  /** `extractParameters`: the scan's spans shifted by `base`, the offset of
      the constructor node's start (not of the parameter text). */
  function ExtractParameters(paramsText: string, base: nat): (r: seq<Span>)
    ensures |paramsText| == 0 ==> r == []
    ensures forall i :: 0 <= i < |r| ==> base <= r[i].start < r[i].end <= base + |paramsText|
    ensures forall i :: 0 <= i < |r| ==>
      r[i].end == base + |paramsText| || paramsText[r[i].end - base - 1] == ','
  {
    Shift(Scan(Matcher(paramsText), |paramsText|, 0), base)
  }

  /** The extracted spans are in order and do not overlap. */
  lemma ExtractedSpansAreOrdered(paramsText: string, base: nat)
    ensures var r := ExtractParameters(paramsText, base);
      forall i, j :: 0 <= i < j < |r| ==> r[i].end <= r[j].start
  {
    var s := Scan(Matcher(paramsText), |paramsText|, 0);
    assert ExtractParameters(paramsText, base) == Shift(s, base);
  }

  /** Each extracted span is, relative to `base`, a match of the expression. */
  lemma ExtractedSpansAreRegexMatches(paramsText: string, base: nat, i: nat)
    requires i < |ExtractParameters(paramsText, base)|
    ensures var r := ExtractParameters(paramsText, base);
      RegexMatches(paramsText, r[i].start - base, r[i].end - base)
  {
    var s := Scan(Matcher(paramsText), |paramsText|, 0);
    var r := ExtractParameters(paramsText, base);
    assert r == Shift(s, base);
    assert r[i] == Span(base + s[i].start, base + s[i].end);
    MatcherIsMatchAt(paramsText, s[i].start);
    MatchAtIsSound(paramsText, s[i].start, s[i].end);
  }

  /** Every position of the text where a match of the expression starts lies inside an extracted span. */
  lemma ExtractedSpansCoverEveryMatch(paramsText: string, base: nat, p: nat, e: nat)
    requires p <= |paramsText| && RegexMatches(paramsText, p, e)
    ensures var r := ExtractParameters(paramsText, base);
      exists i :: 0 <= i < |r| && r[i].start <= base + p < r[i].end
  {
    var r := ExtractParameters(paramsText, base);
    MatchAtIsComplete(paramsText, p, e);
    MatcherIsMatchAt(paramsText, p);
    var i := ScanCoversMatch(Matcher(paramsText), |paramsText|, 0, p);
    assert r[i].start <= base + p < r[i].end;
  }

  /** The expression knows nothing of brackets: in `a: f(x, y)` the match of
      `a` stops at the comma inside the call, and the rest `y)` has no colon,
      so it yields no parameter at all. */
  lemma CommaInsideCallSplits()
    ensures ExtractParameters("a: f(x, y)", 0) == [Span(0, 7)]
  {
    var t := "a: f(x, y)";
    var M := Matcher(t);
    assert WordEnd(t, 1) == 1 && WordEnd(t, 0) == 1;
    assert SpaceEnd(t, 1) == 1;
    assert CommaFrom(t, 6) == 6 && CommaFrom(t, 5) == 6 && CommaFrom(t, 4) == 6;
    assert CommaFrom(t, 3) == 6 && CommaFrom(t, 2) == 6;
    assert M(0) == Some(7);
    assert WordEnd(t, 9) == 9 && WordEnd(t, 8) == 9 && SpaceEnd(t, 9) == 9;
    assert M(7).None? && M(8).None? && M(9).None?;
    assert Scan(M, 10, 10) == [] && Scan(M, 10, 9) == [] && Scan(M, 10, 8) == [] && Scan(M, 10, 7) == [];
    assert Scan(M, 10, 0) == [Span(0, 7)];
  }

  /** A single `name: value` parameter is one span over the whole text. */
  lemma SingleParameter(base: nat)
    ensures ExtractParameters("a: 1", base) == [Span(base, base + 4)]
  {
    var t := "a: 1";
    var M := Matcher(t);
    assert WordEnd(t, 1) == 1 && WordEnd(t, 0) == 1;
    assert SpaceEnd(t, 1) == 1;
    assert CommaFrom(t, 4) == 4 && CommaFrom(t, 3) == 4 && CommaFrom(t, 2) == 4;
    assert M(0) == Some(4);
    assert Scan(M, 4, 4) == [];
    assert Scan(M, 4, 0) == [Span(0, 4)];
  }
}

=== FILE: parents.dfy ===
/**
  Parent resolution and the upward walks built on it. A node's parent is
  found by start position alone: the first node in pre-order that has a
  child starting where the node starts. Because of that, a root with a child
  at its own start is its own parent, and a loop that climbs by parents and
  never meets its stop condition does not end. The walks therefore take a
  fuel argument: one unit per loop iteration, `OutOfFuel` when it runs out.
 */
module Parents {
  import opened Wrappers
  import opened Geometry
  import opened Outline

  /** Some direct child of `x` starts at `s`. */
  predicate HasChildStartingAt(x: Node, s: Position) {
    exists i :: 0 <= i < |x.children| && x.children[i].range.start == s
  }

  function ParentTest(s: Position): Node -> bool
  {
    (x: Node) => HasChildStartingAt(x, s)
  }

  /** `findParentNodeExcludingCurrent`: the first node in pre-order with a
      direct child starting where `current` starts. */
  function FindParentNodeExcludingCurrent(root: Node, current: Node): (r: Option<Node>)
    ensures r == FirstWhere(Preorder(root), ParentTest(current.range.start))
    ensures |root.children| == 0 ==> r.None?
    ensures r.Some? ==> r.value in Preorder(root) && HasChildStartingAt(r.value, current.range.start)
    ensures r.None? <==> forall x :: x in Preorder(root) ==> !HasChildStartingAt(x, current.range.start)
  {
    DepthFirstIsFirstInPreorder(root, ParentTest(current.range.start));
    FirstWhereIsLeast(Preorder(root), ParentTest(current.range.start));
    assert |root.children| == 0 ==> Preorder(root) == [root];
    DepthFirst(root, ParentTest(current.range.start))
  }

  /** A direct child of the root has the root as its parent. */
  lemma DirectChildParent(root: Node, i: nat)
    requires i < |root.children|
    ensures FindParentNodeExcludingCurrent(root, root.children[i]) == Some(root)
  {
    assert ParentTest(root.children[i].range.start)(root);
  }

  /** Every node strictly below the root has a parent. */
  lemma ProperDescendantHasParent(root: Node, x: Node)
    requires x in PreorderAll(root.children)
    ensures FindParentNodeExcludingCurrent(root, x).Some?
  {
    var y := HolderOf(root, x);
  }

  /** The node of the tree that holds `x` among its direct children. */
  lemma {:induction false} HolderOf(n: Node, x: Node) returns (y: Node)
    requires x in PreorderAll(n.children)
    ensures y in Preorder(n) && x in y.children
    decreases n
  {
    var i := ChildHolding(n.children, x);
    var c := n.children[i];
    if x == c {
      y := n;
    } else {
      assert x in PreorderAll(c.children);
      y := HolderOf(c, x);
      ChildInPreorder(n, i);
    }
  }

  /** The hazard: a root with a child at its own start is its own parent. */
  lemma SelfParent(root: Node, current: Node)
    requires HasChildStartingAt(root, root.range.start)
    requires current.range.start == root.range.start
    ensures FindParentNodeExcludingCurrent(root, current) == Some(root)
  {
  }

  /** The `k`-th node up the parent relation from `current` (`current` itself
      at 0), or nothing when the climb meets a node without a parent first. */
  function Chain(current: Node, root: Node, k: nat): Option<Node>
    decreases k
  {
    if k == 0 then Some(current)
    else match FindParentNodeExcludingCurrent(root, current)
      case None => None
      case Some(p) => Chain(p, root, k - 1)
  }

  /** The chain from a node continues as the chain from its parent. */
  lemma ChainShift(current: Node, root: Node, p: Node)
    requires FindParentNodeExcludingCurrent(root, current) == Some(p)
    ensures Chain(current, root, 1) == Some(p)
    ensures forall j: nat {:trigger Chain(p, root, j)} :: Chain(current, root, j + 1) == Chain(p, root, j)
  {
  }

  /** Outcome of an upward walk under fuel. */
  datatype Walk = Found(node: Node) | NotFound | OutOfFuel

  /** The `j`-th node up from `current` exists and fails the stop test. */
  predicate Skips(current: Node, root: Node, Stop: Node -> bool, j: nat) {
    Chain(current, root, j).Some? && !Stop(Chain(current, root, j).value)
  }

  /** What a parent walk from `current` returns, read off the chain above it.
      Found: the first node strictly up the chain that passes `Stop`.
      NotFound: the chain ends within the fuel, no node before the end passing.
      OutOfFuel: exactly when the first `fuel` nodes up all exist and fail. */
  ghost predicate NearestOnChain(current: Node, root: Node, Stop: Node -> bool, fuel: nat, r: Walk) {
    && (r.Found? ==> exists k :: (1 <= k <= fuel && Chain(current, root, k) == Some(r.node) && Stop(r.node)
          && forall j :: 1 <= j < k ==> Skips(current, root, Stop, j)))
    && (r.NotFound? ==> exists k :: (1 <= k <= fuel && Chain(current, root, k).None?
          && forall j :: 1 <= j < k ==> Skips(current, root, Stop, j)))
    && (r.OutOfFuel? <==> forall j :: 1 <= j <= fuel ==> Skips(current, root, Stop, j))
  }

  /** The loop shared by `findParentOfType` and `findParentArray`: climb by
      parents and return the first parent that passes `Stop`. */
  function ParentWalk(current: Node, root: Node, Stop: Node -> bool, fuel: nat): (r: Walk)
    ensures r.Found? ==> Stop(r.node) && r.node in Preorder(root)
    decreases fuel
  {
    if fuel == 0 then OutOfFuel
    else match FindParentNodeExcludingCurrent(root, current)
      case None => NotFound
      case Some(p) => if Stop(p) then Found(p) else ParentWalk(p, root, Stop, fuel - 1)
  }

  /** Above a node with parent `p`, the chain is `p` followed by the chain above `p`. */
  lemma SkipsAfterParent(current: Node, root: Node, Stop: Node -> bool, p: Node)
    requires FindParentNodeExcludingCurrent(root, current) == Some(p)
    ensures Chain(current, root, 1) == Some(p)
    ensures Skips(current, root, Stop, 1) == !Stop(p)
    ensures forall j: nat {:trigger Skips(p, root, Stop, j)} :: Skips(current, root, Stop, j + 1) == Skips(p, root, Stop, j)
  {
    ChainShift(current, root, p);
  }

  /** The parent walk finds the nearest node up the chain that passes its test. */
  lemma {:induction false} ParentWalkFollowsChain(current: Node, root: Node, Stop: Node -> bool, fuel: nat)
    ensures NearestOnChain(current, root, Stop, fuel, ParentWalk(current, root, Stop, fuel))
    decreases fuel
  {
    if fuel > 0 {
      match FindParentNodeExcludingCurrent(root, current)
      case None =>
        assert Chain(current, root, 1).None?;
        assert !Skips(current, root, Stop, 1);
      case Some(p) =>
        SkipsAfterParent(current, root, Stop, p);
        if Stop(p) {
          assert !Skips(current, root, Stop, 1);
        } else {
          ParentWalkFollowsChain(p, root, Stop, fuel - 1);
          ParentWalkStep(current, root, Stop, fuel, p);
        }
    }
  }

  /** The induction step of `ParentWalkFollowsChain`: a walk that climbs past
      `p` is the walk from `p`, with every index on the chain one further. */
  lemma ParentWalkStep(current: Node, root: Node, Stop: Node -> bool, fuel: nat, p: Node)
    requires fuel > 0 && FindParentNodeExcludingCurrent(root, current) == Some(p) && !Stop(p)
    requires NearestOnChain(p, root, Stop, fuel - 1, ParentWalk(p, root, Stop, fuel - 1))
    ensures NearestOnChain(current, root, Stop, fuel, ParentWalk(current, root, Stop, fuel))
  {
    var r := ParentWalk(p, root, Stop, fuel - 1);
    assert ParentWalk(current, root, Stop, fuel) == r;
    SkipsAfterParent(current, root, Stop, p);
    if r.Found? {
      var k :| 1 <= k <= fuel - 1 && Chain(p, root, k) == Some(r.node) && Stop(r.node)
        && forall j :: 1 <= j < k ==> Skips(p, root, Stop, j);
      ChainShift(current, root, p);
      assert Chain(current, root, k + 1) == Some(r.node);
      assert !Skips(current, root, Stop, k + 1);
      assert forall j :: 1 <= j < k + 1 ==> Skips(current, root, Stop, j) by {
        forall j | 2 <= j < k + 1 ensures Skips(current, root, Stop, j) {
          assert Skips(p, root, Stop, j - 1);
        }
      }
    } else if r.NotFound? {
      var k :| 1 <= k <= fuel - 1 && Chain(p, root, k).None?
        && forall j :: 1 <= j < k ==> Skips(p, root, Stop, j);
      ChainShift(current, root, p);
      assert Chain(current, root, k + 1).None?;
      assert !Skips(current, root, Stop, k + 1);
      assert forall j :: 1 <= j < k + 1 ==> Skips(current, root, Stop, j) by {
        forall j | 2 <= j < k + 1 ensures Skips(current, root, Stop, j) {
          assert Skips(p, root, Stop, j - 1);
        }
      }
    } else {
      forall j | 2 <= j <= fuel ensures Skips(current, root, Stop, j) {
        assert Skips(p, root, Stop, j - 1);
      }
    }
  }

  /** The test of `findParentOfType`: the kind, and the name unless it is null. */
  function OfType(name: Option<string>, kind: string): Node -> bool
  {
    (x: Node) => x.kind == kind && (name.None? || x.name == name.value)
  }

  /** `findParentOfType`: the nearest strict ancestor (by the start-position
      parent relation) of the given kind and, when given, name. */
  function FindParentOfType(current: Node, root: Node, name: Option<string>, kind: string, fuel: nat): (r: Walk)
    ensures r.Found? ==> r.node.kind == kind && (name.None? || r.node.name == name.value)
    ensures r.Found? ==> r.node in Preorder(root)
    ensures NearestOnChain(current, root, OfType(name, kind), fuel, r)
  {
    ParentWalkFollowsChain(current, root, OfType(name, kind), fuel);
    ParentWalk(current, root, OfType(name, kind), fuel)
  }

  /** The stop test of `findParentArray`: a list literal or a `children:` argument. */
  predicate IsArrayParent(x: Node) {
    x.kind == LIST_LITERAL || IsChildrenArgument(x)
  }

  /** `findParentArray`: the nearest strict ancestor that is a list literal or a `children:` argument. */
  function FindParentArray(current: Node, root: Node, fuel: nat): (r: Walk)
    ensures r.Found? ==> IsArrayParent(r.node) && r.node in Preorder(root)
    ensures NearestOnChain(current, root, IsArrayParent, fuel, r)
  {
    ParentWalkFollowsChain(current, root, IsArrayParent, fuel);
    ParentWalk(current, root, IsArrayParent, fuel)
  }

  /** One iteration of `findNearestConstructor` that moves on: the `j`-th
      node up is no constructor, and its parent exists and is not a
      `children:` argument. */
  predicate ClimbsOn(current: Node, root: Node, j: nat) {
    && Chain(current, root, j).Some? && Chain(current, root, j).value.kind != CONSTRUCTOR_INVOCATION
    && Chain(current, root, j + 1).Some? && !IsChildrenArgument(Chain(current, root, j + 1).value)
  }

  /** The iteration of `findNearestConstructor` that gives up: the `j`-th node
      up is no constructor, and it has no parent or its parent is a
      `children:` argument. */
  predicate GivesUpAt(current: Node, root: Node, j: nat) {
    && Chain(current, root, j).Some? && Chain(current, root, j).value.kind != CONSTRUCTOR_INVOCATION
    && (Chain(current, root, j + 1).None? || IsChildrenArgument(Chain(current, root, j + 1).value))
  }

  /** What `findNearestConstructor` returns, read off the chain from `current`
      (itself included). Found: the first constructor on the chain, reached
      without passing a `children:` argument. NotFound: some iteration
      within the fuel gives up. OutOfFuel: exactly when all `fuel`
      iterations move on. */
  ghost predicate ConstructorOnChain(current: Node, root: Node, fuel: nat, r: Walk) {
    && (r.Found? ==> exists k :: (0 <= k < fuel && Chain(current, root, k) == Some(r.node)
          && r.node.kind == CONSTRUCTOR_INVOCATION
          && forall j :: 0 <= j < k ==> ClimbsOn(current, root, j)))
    && (r.NotFound? ==> exists k :: (0 <= k < fuel && GivesUpAt(current, root, k)
          && forall j :: 0 <= j < k ==> ClimbsOn(current, root, j)))
    && (r.OutOfFuel? <==> forall j :: 0 <= j < fuel ==> ClimbsOn(current, root, j))
  }

  /** The loop of `findNearestConstructor`. */
  function ConstructorWalk(current: Node, root: Node, fuel: nat): (r: Walk)
    ensures r.Found? ==> r.node.kind == CONSTRUCTOR_INVOCATION
    ensures r.Found? ==> r.node == current || r.node in Preorder(root)
    decreases fuel
  {
    if fuel == 0 then OutOfFuel
    else if current.kind == CONSTRUCTOR_INVOCATION then Found(current)
    else match FindParentNodeExcludingCurrent(root, current)
      case None => NotFound
      case Some(p) =>
        if IsChildrenArgument(p) then NotFound
        else ConstructorWalk(p, root, fuel - 1)
  }

  /** Above a node with parent `p`, the iterations of the constructor walk
      are the first one followed by those from `p`. */
  lemma ClimbsAfterParent(current: Node, root: Node, p: Node)
    requires FindParentNodeExcludingCurrent(root, current) == Some(p)
    ensures Chain(current, root, 1) == Some(p)
    ensures forall j: nat {:trigger ClimbsOn(p, root, j)} :: ClimbsOn(current, root, j + 1) == ClimbsOn(p, root, j)
    ensures forall j: nat {:trigger GivesUpAt(p, root, j)} :: GivesUpAt(current, root, j + 1) == GivesUpAt(p, root, j)
  {
    ChainShift(current, root, p);
  }

  /** The constructor walk stops at the first constructor on the chain, or gives up as the source does. */
  lemma {:induction false} ConstructorWalkFollowsChain(current: Node, root: Node, fuel: nat)
    ensures ConstructorOnChain(current, root, fuel, ConstructorWalk(current, root, fuel))
    decreases fuel
  {
    if fuel > 0 {
      if current.kind == CONSTRUCTOR_INVOCATION {
        assert Chain(current, root, 0) == Some(current);
        assert !ClimbsOn(current, root, 0);
      } else {
        match FindParentNodeExcludingCurrent(root, current)
        case None =>
          assert Chain(current, root, 1).None?;
          assert GivesUpAt(current, root, 0) && !ClimbsOn(current, root, 0);
        case Some(p) =>
          ChainShift(current, root, p);
          if IsChildrenArgument(p) {
            assert GivesUpAt(current, root, 0) && !ClimbsOn(current, root, 0);
          } else {
            ConstructorWalkFollowsChain(p, root, fuel - 1);
            ConstructorWalkStep(current, root, fuel, p);
          }
      }
    }
  }

  /** The induction step of `ConstructorWalkFollowsChain`. */
  lemma ConstructorWalkStep(current: Node, root: Node, fuel: nat, p: Node)
    requires fuel > 0 && current.kind != CONSTRUCTOR_INVOCATION
    requires FindParentNodeExcludingCurrent(root, current) == Some(p) && !IsChildrenArgument(p)
    requires ConstructorOnChain(p, root, fuel - 1, ConstructorWalk(p, root, fuel - 1))
    ensures ConstructorOnChain(current, root, fuel, ConstructorWalk(current, root, fuel))
  {
    var r := ConstructorWalk(p, root, fuel - 1);
    assert ConstructorWalk(current, root, fuel) == r;
    ClimbsAfterParent(current, root, p);
    assert ClimbsOn(current, root, 0);
    if r.Found? {
      var k :| 0 <= k < fuel - 1 && Chain(p, root, k) == Some(r.node) && r.node.kind == CONSTRUCTOR_INVOCATION
        && forall j :: 0 <= j < k ==> ClimbsOn(p, root, j);
      ChainShift(current, root, p);
      assert Chain(current, root, k + 1) == Some(r.node);
      assert !ClimbsOn(current, root, k + 1);
      assert forall j :: 0 <= j < k + 1 ==> ClimbsOn(current, root, j) by {
        forall j | 1 <= j < k + 1 ensures ClimbsOn(current, root, j) {
          assert ClimbsOn(p, root, j - 1);
        }
      }
    } else if r.NotFound? {
      var k :| 0 <= k < fuel - 1 && GivesUpAt(p, root, k)
        && forall j :: 0 <= j < k ==> ClimbsOn(p, root, j);
      assert GivesUpAt(current, root, k + 1) && !ClimbsOn(current, root, k + 1);
      assert forall j :: 0 <= j < k + 1 ==> ClimbsOn(current, root, j) by {
        forall j | 1 <= j < k + 1 ensures ClimbsOn(current, root, j) {
          assert ClimbsOn(p, root, j - 1);
        }
      }
    } else {
      forall j | 1 <= j < fuel ensures ClimbsOn(current, root, j) {
        assert ClimbsOn(p, root, j - 1);
      }
    }
  }

  /** `findNearestConstructor`: the node itself or the nearest ancestor that is
      a constructor invocation, giving up at a `children:` argument or at a
      node without a parent. */
  function FindNearestConstructor(current: Node, root: Node, fuel: nat): (r: Walk)
    ensures r.Found? ==> r.node.kind == CONSTRUCTOR_INVOCATION
    ensures r.Found? ==> r.node == current || r.node in Preorder(root)
    ensures fuel > 0 && current.kind == CONSTRUCTOR_INVOCATION ==> r == Found(current)
    ensures ConstructorOnChain(current, root, fuel, r)
  {
    ConstructorWalkFollowsChain(current, root, fuel);
    ConstructorWalk(current, root, fuel)
  }

  /** Extra fuel never changes a walk that already finished. */
  lemma {:induction false} ParentWalkFuelMonotone(current: Node, root: Node, Stop: Node -> bool, f: nat, g: nat)
    requires f <= g && !ParentWalk(current, root, Stop, f).OutOfFuel?
    ensures ParentWalk(current, root, Stop, g) == ParentWalk(current, root, Stop, f)
    decreases f
  {
    match FindParentNodeExcludingCurrent(root, current)
    case None =>
    case Some(p) =>
      if !Stop(p) {
        ParentWalkFuelMonotone(p, root, Stop, f - 1, g - 1);
      }
  }

  lemma {:induction false} NearestConstructorFuelMonotone(current: Node, root: Node, f: nat, g: nat)
    requires f <= g && !FindNearestConstructor(current, root, f).OutOfFuel?
    ensures FindNearestConstructor(current, root, g) == FindNearestConstructor(current, root, f)
    decreases f
  {
    if current.kind != CONSTRUCTOR_INVOCATION {
      match FindParentNodeExcludingCurrent(root, current)
      case None =>
      case Some(p) =>
        if !IsChildrenArgument(p) {
          NearestConstructorFuelMonotone(p, root, f - 1, g - 1);
        }
    }
  }

  /** The hazard made concrete: a root that fails the stop test and has a
      child at its own start makes the walk from any node at that start run
      out of every amount of fuel. */
  lemma {:induction false} ParentWalkDiverges(current: Node, root: Node, Stop: Node -> bool, fuel: nat)
    requires HasChildStartingAt(root, root.range.start) && !Stop(root)
    requires current.range.start == root.range.start
    ensures ParentWalk(current, root, Stop, fuel) == OutOfFuel
    decreases fuel
  {
    if fuel > 0 {
      SelfParent(root, current);
      ParentWalkDiverges(root, root, Stop, fuel - 1);
    }
  }

  lemma {:induction false} NearestConstructorDiverges(root: Node, fuel: nat)
    requires HasChildStartingAt(root, root.range.start)
    requires root.kind != CONSTRUCTOR_INVOCATION && root.kind != NAMED_ARGUMENT
    ensures FindNearestConstructor(root, root, fuel) == OutOfFuel
    decreases fuel
  {
    if fuel > 0 {
      SelfParent(root, root);
      NearestConstructorDiverges(root, fuel - 1);
    }
  }

  /** No two distinct nodes of the tree start at the same position. */
  ghost predicate DistinctStarts(root: Node) {
    forall x, y :: x in Preorder(root) && y in Preorder(root) && x != y ==> x.range.start != y.range.start
  }

  function StartsBefore(s: Position): Node -> bool
  {
    (x: Node) => Lt(x.range.start, s)
  }

  /** How many nodes of the tree start before `s`: the walks' termination measure. */
  function NodesBefore(root: Node, s: Position): nat
  {
    |Filter(Preorder(root), StartsBefore(s))|
  }

  /** In a well-nested tree with distinct starts, the parent starts strictly before the node. */
  lemma ParentStartsEarlier(root: Node, current: Node)
    requires WellNested(root) && DistinctStarts(root)
    requires FindParentNodeExcludingCurrent(root, current).Some?
    ensures Lt(FindParentNodeExcludingCurrent(root, current).value.range.start, current.range.start)
  {
    var p := FindParentNodeExcludingCurrent(root, current).value;
    var i :| 0 <= i < |p.children| && p.children[i].range.start == current.range.start;
    var c := p.children[i];
    WellNestedSubtree(root, p);
    ChildInPreorder(p, i);
    PreorderTransitive(root, p, c);
    NestedInIsEndpointOrder(c.range, p.range);
  }

  /** The measure drops at each step of a walk. */
  lemma ParentLowersMeasure(root: Node, current: Node)
    requires WellNested(root) && DistinctStarts(root)
    requires FindParentNodeExcludingCurrent(root, current).Some?
    ensures NodesBefore(root, FindParentNodeExcludingCurrent(root, current).value.range.start)
          < NodesBefore(root, current.range.start)
  {
    var p := FindParentNodeExcludingCurrent(root, current).value;
    ParentStartsEarlier(root, current);
    forall x | x in Preorder(root) && StartsBefore(p.range.start)(x)
      ensures StartsBefore(current.range.start)(x)
    {
      LeIsTotalOrder(x.range.start, p.range.start, current.range.start);
    }
    FilterStrictlyShorter(Preorder(root), StartsBefore(p.range.start), StartsBefore(current.range.start), p);
  }

  /** In a well-nested outline with distinct starts the walk ends once the
      fuel exceeds the number of nodes starting before the first node. */
  lemma {:induction false} ParentWalkTerminates(current: Node, root: Node, Stop: Node -> bool, fuel: nat)
    requires WellNested(root) && DistinctStarts(root)
    requires fuel > NodesBefore(root, current.range.start)
    ensures ParentWalk(current, root, Stop, fuel) != OutOfFuel
    decreases fuel
  {
    match FindParentNodeExcludingCurrent(root, current)
    case None =>
    case Some(p) =>
      if !Stop(p) {
        ParentLowersMeasure(root, current);
        ParentWalkTerminates(p, root, Stop, fuel - 1);
        assert ParentWalk(current, root, Stop, fuel) == ParentWalk(p, root, Stop, fuel - 1);
      }
  }

  /** Fuel of one more than the tree size is always enough in such an outline. */
  lemma ParentWalkTreeSizeFuel(current: Node, root: Node, Stop: Node -> bool)
    requires WellNested(root) && DistinctStarts(root)
    ensures ParentWalk(current, root, Stop, |Preorder(root)| + 1) != OutOfFuel
  {
    FilterNoLonger(Preorder(root), StartsBefore(current.range.start));
    ParentWalkTerminates(current, root, Stop, |Preorder(root)| + 1);
  }

  lemma {:induction false} NearestConstructorTerminates(current: Node, root: Node, fuel: nat)
    requires WellNested(root) && DistinctStarts(root)
    requires fuel > NodesBefore(root, current.range.start)
    ensures FindNearestConstructor(current, root, fuel) != OutOfFuel
    decreases fuel
  {
    if current.kind != CONSTRUCTOR_INVOCATION {
      match FindParentNodeExcludingCurrent(root, current)
      case None =>
      case Some(p) =>
        if !IsChildrenArgument(p) {
          ParentLowersMeasure(root, current);
          NearestConstructorTerminates(p, root, fuel - 1);
        }
    }
  }

  /** Fuel of one more than the tree size is enough for the constructor walk too. */
  lemma NearestConstructorTreeSizeFuel(current: Node, root: Node)
    requires WellNested(root) && DistinctStarts(root)
    ensures FindNearestConstructor(current, root, |Preorder(root)| + 1) != OutOfFuel
  {
    FilterNoLonger(Preorder(root), StartsBefore(current.range.start));
    NearestConstructorTerminates(current, root, |Preorder(root)| + 1);
  }
}

=== FILE: wrappers.dfy ===
/** The optional value used for every "node or null" return of the navigation code. */
module Wrappers {

  datatype Option<+T> = None | Some(value: T)
}
